=== FILE: README.md ===
# asearch in Dafny

A model of the `asearch` crate (`src/lib.rs`): approximate pattern matching with
a bit-parallel automaton in the Shift-Or family, extended to a Levenshtein budget
of up to 3 edits and to a space wildcard.

- **Compiler** (`Asearch::new`). It walks the pattern's codepoints with a one-hot
  cursor that starts at `0x80000000`. Each non-space codepoint ORs the cursor into
  the table entries of itself and of its ASCII upper- and lower-case forms, then
  shifts the cursor right by one. A space ORs the cursor into the `epsilon`
  (wildcard) mask and does not move it. The final cursor is `acceptpat`.
- **Automaton** (`state`, `find`). It keeps four 32-bit words, one per edit level.
  It updates them once per text codepoint with the crate's recurrence:
  - levels 3, 2 and 1 are computed from the old words;
  - then level 0;
  - then the deletion cascade `i1 |= i0 >> 1; i2 |= i1 >> 1; i3 |= i2 >> 1`.
  `find` caps the budget at 3 and tests the chosen word against `acceptpat`.

Modules, one per part of the crate:

- `Bits` holds single-bit masks. `Bit(j)` is the cursor after j shifts.
- `CaseFold` holds `is_upper`, `is_lower`, `to_lower` and `to_upper`.
- `Compiler` holds `unpack` and `Asearch::new`. `CompilerFacts` states what the compiled
  table, wildcard mask and accept mask hold, in terms of the pattern itself.
- `Automaton` holds `state` and `find`, plus the effect of one step, bit by bit.
- `Reference` holds the main theorem.
  - `Reach` is an edit automaton over pattern positions, defined without masks.
  - Bit j of level d of the state is set exactly when position j is reachable with d
    edits (`StateBit`).
  - So `find` answers whether the last position is reachable within the capped budget
    (`FindSpec`).
- `Vectors` holds the crate's own test assertions, derived from `FindSpec`.

The masks are `bv32`, so the shifts and ORs are the crate's `u32` operations. The
65536-entry table is a `map` whose absent keys read as 0.

Where the code and a plain reading of its design disagree, the model follows the code:

- **Budgets are not monotone.** The start state puts nothing on levels 1..3, and no
  deletion closure is applied before the first codepoint. So a larger budget can
  answer false where a smaller one answered true:
  - pattern "a" on text "x" is found at budget 1 but not at budget 3 (`Vectors.NotMonotone`);
  - the empty pattern on the empty text is found at budget 0 but not at budget 1
    (`Vectors.EmptyOnEmpty`, `Reference.EmptyText`).
- **"bcde" against the pattern "abcde" needs budget 2.** The crate's test for it
  carries a note that it should pass at budget 1. It passes only at 2, and
  `Vectors.AbcdeHeadless` states that current behaviour. This is not a general rule
  about a missing first codepoint: the pattern "aab" is found in "ab" at budget 1
  (`Vectors.AabHeadless`).
- **The whole text is matched, not a part of it.** `find` compares the whole text with
  the pattern, never a part of it, and a found text is within the budget of the pattern
  (`Reference.FindSound`, below). It does not search for the pattern inside the text.
  At budget 0 a pattern without wildcards and of fewer than 32 codepoints is found
  exactly in the texts of its own length that agree with it up to case
  (`Reference.ZeroBudgetExact`); a longer pattern is never found. So "abcde" is
  not found in "xabcde" at budget 0 (`Vectors.AbcdeShifted`).
- **A space matches any run of text, the empty run included.** At budget 0 the pattern
  a + " " + b, with a and b free of spaces and together shorter than 32 codepoints, is
  found exactly in the texts that start with a and end with b up to case, the two not
  overlapping (`Reference.WildcardMatch`); whatever run lies between them is absorbed
  (`Reference.WildcardAbsorbs`). So "ab de" is found in "abde" (`Vectors.WildEmptyRun`).
- **`find` is sound but not complete for Levenshtein distance.** The budget is documented
  as a Levenshtein distance. For a pattern without wildcards, a text found at budget k is
  within k edits of the pattern, k capped at 3 (`Reference.FindSound`). The converse fails:
  "bcde" is one deletion away from "abcde" but is not found at budget 1
  (`Vectors.NotComplete`). A match means a text codepoint is a case variant of the
  pattern codepoint.
- **Patterns with 32 or more positions do not wrap into the last bit.** Once the
  cursor has been shifted 32 times it is 0. Every later table write is a no-op, and
  `find` is false for every text and budget (`CompilerFacts.LongPatternInert`,
  `Reference.LongNeverFound`).

## Model

| member | source | states |
|---|---|---|
| `Bits.BitShape` | src/lib.rs:21-31 | the cursor after j shifts has exactly one bit for j <= 31 and is 0 from j = 32 on |
| `Bits.HasBitShr` | src/lib.rs:48-54 | shifting a word right by one moves position j-1 to position j, and nothing reaches position 0 |
| `CaseFold.IsUpper` | src/lib.rs:85-87 | models `is_upper`: a codepoint is a capital exactly when the codepoint 0x20 above it is a small letter, and no capital is also small |
| `CaseFold.IsLower` | src/lib.rs:88-90 | models `is_lower`: only ASCII codepoints (below 0x80) are small letters |
| `CaseFold.ToLower` | src/lib.rs:91-97 | models `to_lower`: it changes exactly the capitals, each to its small letter, so no capital survives and letters stay letters |
| `CaseFold.ToUpper` | src/lib.rs:98-104 | models `to_upper`: it changes exactly the small letters, each to its capital, so no small letter survives and letters stay letters |
| `CaseFold.FoldKeepsLetters` | src/lib.rs:85-104 | case conversion maps letters to letters and leaves every other codepoint unchanged in both directions |
| `CaseFold.FoldRoundTrip` | src/lib.rs:91-104 | `to_upper` undoes `to_lower` on capitals, and `to_lower` undoes `to_upper` on small letters |
| `CaseFold.FoldCanonical` | src/lib.rs:91-104 | a letter and its other-case form have the same folded forms, and the two forms differ |
| `CaseFold.VariantsMatch` | src/lib.rs:28-30 | the three table writes for a pattern letter cover exactly the letters with the same lower-case form; for a non-letter they cover only itself |
| `CaseFold.SpaceOnlyItself` | src/lib.rs:25-30 | the space is never a case variant of another codepoint |
| `Compiler.Unpack` | src/lib.rs:77-83 | models `unpack`: one code point per char, in order |
| `Compiler.UnpackInjective` | src/lib.rs:77-83 | unpacking a string into code points loses nothing: distinct strings give distinct sequences |
| `Compiler.Feed` | src/lib.rs:24-32 | models one iteration of the loop in `Asearch::new`: a space leaves the table and the cursor alone; any other codepoint keeps the wildcard mask and adds exactly its case variants to the table's keys |
| `Compiler.MarkHit` | src/lib.rs:28-30 | a written key's entry gains exactly the cursor bits, however many of the writes land on it |
| `Compiler.MarkMiss` | src/lib.rs:28-30 | keys that are not written keep their presence and their entry |
| `Compiler.MarkDomain` | src/lib.rs:28-30 | writing adds exactly the written keys to the table |
| `Compiler.FeedKeeps` | src/lib.rs:25-31 | one loop iteration leaves the entries of codepoints that are not case variants of the input unchanged |
| `Compiler.FeedWrites` | src/lib.rs:28-31 | one iteration over a non-space codepoint ORs the cursor into the entry of each of its case variants |
| `Compiler.FeedWritesBoth` | src/lib.rs:28-30 | two case variants with equal entries still have equal entries after an iteration |
| `Compiler.FeedDomain` | src/lib.rs:25-30 | an iteration never makes the space a key and keeps every key below 0x10000 |
| `Compiler.Compile` | src/lib.rs:19-39 | the accept mask is the cursor after n shifts, where n is the number of non-space codepoints; the space is never a key; every key is below 0x10000 |
| `CompilerFacts.AcceptShape` | src/lib.rs:31-35 | the accept mask has exactly bit n when n <= 31, and is 0 when n >= 32 |
| `CompilerFacts.TableBit` | src/lib.rs:23-33 | bit j of the entry of codepoint c is set exactly when pattern position j exists, j < 32, and c is that position's codepoint or a case variant of it |
| `CompilerFacts.EpsilonBit` | src/lib.rs:25-26 | bit j of the wildcard mask is set exactly when some space in the pattern follows exactly j non-space codepoints |
| `CompilerFacts.FoldSymmetry` | src/lib.rs:28-30 | a capital and its small letter have the same table entry |
| `CompilerFacts.NonLetterExact` | src/lib.rs:28-30 | bit j of a non-letter's entry is set exactly when position j holds that very codepoint; Han characters get no variants |
| `CompilerFacts.LongPatternInert` | src/lib.rs:28-35 | after 32 positions, further codepoints change no entry, the wildcard mask or the accept mask, which stays 0 |
| `CompilerFacts.WildcardAtSnoc` | src/lib.rs:25-26 | appending a codepoint adds a wildcard slot only when it is a space, and then at the current position count |
| `CompilerFacts.PositionAcceptsSnoc` | src/lib.rs:27-31 | appending a non-space codepoint adds exactly one position, at the end, accepting its case variants |
| `Automaton.Step` | src/lib.rs:47-54 | models the loop body of `state`: a level 0 with nothing alive stays empty, and a codepoint that no position accepts, with no wildcard slot, empties level 0; `StepBitZero` and `StepBitUpper` give every bit |
| `Automaton.LevelZeroDies` | src/lib.rs:51 | level 0 loses everything on a codepoint that no position accepts when there is no wildcard slot, since it cannot spend edits |
| `Automaton.State` | src/lib.rs:41-57 | models `state`: for a pattern without wildcards, a non-empty text none of whose codepoints any position accepts (no table bit, so not even a case variant of a pattern codepoint) leaves level 0 empty |
| `Automaton.Find` | src/lib.rs:63-72 | models `find`: true only when the accept mask and the word of the capped level are both non-zero; `Reference.FindSpec` gives the exact answer |
| `Automaton.FindCaps` | src/lib.rs:63-72 | every budget from 3 on gives the same answer as budget 3 |
| `Automaton.RunState` | src/lib.rs:41-57 | the loop that updates the four words codepoint by codepoint computes the state of the whole text |
| `Automaton.LevelZeroBit` | src/lib.rs:51 | bit j of the new level 0 is set exactly when j is a kept wildcard slot or position j-1 was set and matched |
| `Automaton.UpdateBit` | src/lib.rs:48-50 | bit j of an updated upper level, before the cascade: its own wildcard or match moves, or an insertion or substitution from the old level below |
| `Automaton.ClosureBit` | src/lib.rs:52-54 | the cascade adds bit j exactly when bit j-1 of the new level below is set |
| `Automaton.StepBitZero` | src/lib.rs:51 | one step on level 0, bit by bit |
| `Automaton.StepBitUpper` | src/lib.rs:48-54 | one step on level d in 1..3, bit by bit: the new level contains the old level below, the old level below shifted, and the new level below shifted, and nothing else beyond its own moves |
| `Reference.StateBit` | src/lib.rs:41-57 | bit j of level d after reading text t is set exactly when the edit automaton can reach position j with d edits |
| `Reference.FindSpec` | src/lib.rs:63-72 | `find` is true exactly when the pattern has fewer than 32 positions and its last position is reachable at the capped budget |
| `Reference.EmptyText` | src/lib.rs:41-72 | the empty text is found only by a pattern without positions, and only at budget 0 |
| `Reference.LongNeverFound` | src/lib.rs:31-71 | a pattern with 32 or more positions is never found |
| `Reference.ExactMatch` | src/lib.rs:19-72 | every pattern with fewer than 32 positions is found in itself at budget 0 |
| `Reference.ReachLevelZero` | src/lib.rs:51 | for a pattern without wildcards and of fewer than 32 codepoints, with no edits, the automaton is at position j after text t exactly when j equals the length of t and t agrees with the start of the pattern up to case |
| `Reference.ZeroBudgetExact` | src/lib.rs:19-72 | at budget 0, a pattern without wildcards and of fewer than 32 codepoints is found exactly in the texts of its own length that agree with it codepoint by codepoint up to ASCII case |
| `Reference.OneWildcardSlot` | src/lib.rs:24-26 | a pattern with one space between two plain pieces a and b has its only wildcard slot right after the positions of a |
| `Reference.ReachWildZero` | src/lib.rs:51 | with no edits, the pattern a + " " + b is at position j after text t exactly when either j is below the length of a and t agrees up to case with the first j codepoints of a, or t starts with a and ends with the next j minus len(a) codepoints of the pattern, taken from b |
| `Reference.WildcardMatch` | src/lib.rs:19-72 | at budget 0 the pattern a + " " + b is found exactly in the texts at least as long as a and b together that start with a and end with b up to case: the space matches any run, the empty one included |
| `Reference.WildcardAbsorbs` | src/lib.rs:19-72 | a text x + y + z with x agreeing with a and z with b is found by a + " " + b at budget 0, whatever y is |
| `Reference.LevInsert` | src/lib.rs:48-50 | a fact about the reference distance, the counterpart of the insertion term that `ReachSound` uses: the distance grows by at most one when the text gains a codepoint |
| `Reference.LevDelete` | src/lib.rs:52-54 | a fact about the reference distance, the counterpart of the deletion (cascade) term that `ReachSound` uses: the distance grows by at most one when the pattern gains a codepoint |
| `Reference.LevDiagonal` | src/lib.rs:48-51 | a fact about the reference distance, the counterpart of the substitution and match terms that `ReachSound` uses: the distance grows by at most one when both gain a codepoint, and not at all when the text codepoint is a case variant of the pattern codepoint |
| `Reference.ReachSound` | src/lib.rs:41-57 | for a pattern without wildcards, every configuration reachable at position j with d edits has the text within d Levenshtein edits of the first j pattern codepoints |
| `Reference.FindSound` | src/lib.rs:59-72 | for a pattern without wildcards, a text found at budget k is within the capped budget of Levenshtein edits of the pattern |
| `Reference.LevLeadingDeletion` | src/lib.rs:59-72 | a text that agrees with the pattern minus its first codepoint is within one edit of the pattern |
| `Reference.CaseBlind` | src/lib.rs:41-57 | texts that agree up to ASCII case drive the automaton to the same state and get the same answer |
| `Vectors.AbcdeExact` | src/lib.rs:114-123 | "abcde" is found in "abcde" at budgets 0 and 1 |
| `Vectors.AbcdeCaseBlind` | src/lib.rs:115 | "abcde" is found in "aBCDe" at budget 0 |
| `Vectors.AbcdeInserted` | src/lib.rs:116-119 | "abXcde" is missed at budget 0 and found at 1 |
| `Vectors.AbcdeSubstituted` | src/lib.rs:117-120 | "ab?de" is missed at budget 0 and found at 1 |
| `Vectors.AbcdeTwoInserted` | src/lib.rs:118-122 | "abXXde" is missed at budget 1 and found at 2 |
| `Vectors.AbcdeDeleted` | src/lib.rs:121 | "abde" is missed at budget 0 |
| `Vectors.AbcdeTruncated` | src/lib.rs:124-125 | "abcd" is missed at budget 0 and found at 1 |
| `Vectors.AbcdeShifted` | src/lib.rs:63-72 | "xabcde" is missed at budget 0 and found at 1: the whole text is matched, so a leading extra codepoint is an edit |
| `Vectors.AbcdeHeadless` | src/lib.rs:126 | "bcde" is found at budget 2, and is missed at budget 1 |
| `Vectors.WildOne` | src/lib.rs:133 | "ab de" is found in "abcde" at budget 0 |
| `Vectors.WildTwo` | src/lib.rs:134 | "ab de" is found in "abccde" at budget 0 |
| `Vectors.WildMany` | src/lib.rs:135 | "ab de" is found in "abXXXXXXXde" at budget 0 |
| `Vectors.WildEdited` | src/lib.rs:136 | "ab de" is found in "ababcccccxede" at budget 1, as the test asserts; it is already found at budget 0, because the slot absorbs "abcccccxe" |
| `Vectors.WildUnfinished` | src/lib.rs:137 | "ab de" is missed in "abcccccxe" at budget 0 |
| `Vectors.WildEmptyRun` | src/lib.rs:24-26 | "ab de" is found in "abde" at budget 0: the slot absorbs the empty run |
| `Vectors.KanjiExact` | src/lib.rs:144 | "漢字文字列" is found in itself at budget 0 |
| `Vectors.KanjiInserted` | src/lib.rs:145-146 | "漢字の文字列" is missed at budget 0 and found at 1 |
| `Vectors.KanjiTruncated` | src/lib.rs:147-148 | "漢字文字" is missed at budget 0 and found at 1 |
| `Vectors.KanjiSubstituted` | src/lib.rs:149-150 | "漢字文字烈" is missed at budget 0 and found at 1 |
| `Vectors.KanjiUnrelated` | src/lib.rs:151 | "漢和辞典" is missed at budget 2 |
| `Vectors.AabHeadless` | src/lib.rs:63-72 | "aab" is missed in "ab" at budget 0 and found at 1: a missing first codepoint can cost a single edit |
| `Vectors.NotComplete` | src/lib.rs:59-72 | "bcde" is within one edit of "abcde" but is not found at budget 1, so `find` is not complete for the distance its budget is documented as |
| `Vectors.NotMonotone` | src/lib.rs:63-72 | pattern "a" is found in "x" at budget 1 but not at budget 3 |
| `Vectors.EmptyOnEmpty` | src/lib.rs:63-72 | the empty pattern is found in the empty text at budget 0 but not at budget 1 |

## Left out

- Codepoints of 0x10000 and above. The crate panics on the array index; the model
  requires them away (`InTable`) in `Compile`, `State` and `Find`.
- The `impl Into<String>` conversions. `Unpack` gives a string's code points. The
  pattern compiler and the automaton take code point sequences directly.
- The physical `[u32; 0x10000]` array and its allocation. The table is a map whose
  absent keys read as 0.

=== FILE: automaton.dfy ===
/** The matcher (`state` and `find`): a bit-parallel automaton with one 32-bit word
    per number of edits 0..3. Bit j of word d says "the text read so far can be
    aligned with the first j pattern positions using d edits". */
module Automaton {
  import opened Bits
  import opened Compiler

  /** Number of edit levels the automaton tracks. */
  const LEVELS: nat := 4

  /** One word per edit level, over machine words W. As with `Machine`, the word type is
      a parameter only to keep the verifier's obligations small; the crate's state is
      `Levels<bv32>`. */
  datatype Levels<W> = Levels(i0: W, i1: W, i2: W, i3: W)
  {
    /** The word of level d. */
    function At(d: nat): W
      requires d < LEVELS
    {
      if d == 0 then i0 else if d == 1 then i1 else if d == 2 then i2 else i3
    }
  }

  /** The crate's automaton state: four 32-bit words. */
  type Words = Levels<bv32>

  /** Start state: position 0 at level 0 and nothing else. */
  const INITSTATE: Words := Levels(INITPAT, 0, 0, 0)

  /** The unsigned byte the crate takes as the edit budget. */
  type u8 = x: nat | x < 256

  /** The word one text codepoint whose table entry is `mask` makes of level `x`,
      given `below`, the previous word of the level under it: stay on a wildcard slot,
      advance over a matching position, or spend an edit (substitution or insertion). */
  function Update(x: bv32, below: bv32, mask: bv32, eps: bv32): bv32
  {
    (x & eps) | ((x & mask) >> 1) | (below >> 1) | below
  }

  /** One text codepoint. Levels 1..3 are updated from the old words of the level
      below, level 0 has no level below, and then deletions are closed upwards from the
      new words, level by level. */
  function Step(s: Words, mask: bv32, eps: bv32): (r: Words)
    ensures s.i0 == 0 ==> r.i0 == 0
    ensures mask == 0 && eps == 0 ==> r.i0 == 0
  {
    var n3 := Update(s.i3, s.i2, mask, eps);
    var n2 := Update(s.i2, s.i1, mask, eps);
    var n1 := Update(s.i1, s.i0, mask, eps);
    var n0 := (s.i0 & eps) | ((s.i0 & mask) >> 1);
    LevelZeroDies(s.i0, mask, eps);
    var m1 := n1 | (n0 >> 1);
    var m2 := n2 | (m1 >> 1);
    var m3 := n3 | (m2 >> 1);
    Levels(n0, m1, m2, m3)
  }

  /** Level 0 has no edits to spend: with nothing alive, or with a codepoint that no
      position accepts and no wildcard slot, nothing survives on it. */
  lemma LevelZeroDies(x: bv32, mask: bv32, eps: bv32)
    ensures x == 0 || (mask == 0 && eps == 0) ==> (x & eps) | ((x & mask) >> 1) == 0
  {
  }

  /** `Asearch::state`: fold `Step` over the text, from INITSTATE. Every text codepoint
      must index the table. */
  function State(a: Asearch, t: seq<nat>): (r: Words)
    requires InTable(t)
    ensures a.epsilon == 0 && |t| > 0 && (forall i :: 0 <= i < |t| ==> Lookup(a, t[i]) == 0) ==> r.i0 == 0
  {
    if |t| == 0 then INITSTATE
    else
      var u := t[..|t| - 1];
      assert InTable(u);
      Step(State(a, u), Lookup(a, t[|t| - 1]), a.epsilon)
  }

  /** The level `find` reads: the edit budget, capped at the highest level. */
  function Level(ambig: u8): (d: nat)
    ensures d < LEVELS
    ensures ambig < LEVELS ==> d == ambig
    ensures ambig >= LEVELS ==> d == LEVELS - 1
  {
    if ambig < LEVELS then ambig else LEVELS - 1
  }

  /** `Asearch::find`: does the accept position survive at the budget's level? */
  function Find(a: Asearch, t: seq<nat>, ambig: u8): (r: bool)
    requires InTable(t)
    ensures r ==> a.acceptpat != 0 && State(a, t).At(Level(ambig)) != 0
  {
    State(a, t).At(Level(ambig)) & a.acceptpat != 0
  }

  /** `Asearch::state` as the source writes it: the words updated in a loop over the text. */
  method RunState(a: Asearch, t: seq<nat>) returns (s: Words)
    requires InTable(t)
    ensures s == State(a, t)
  {
    s := INITSTATE;
    var i := 0;
    while i < |t|
      invariant 0 <= i <= |t|
      invariant InTable(t[..i])
      invariant s == State(a, t[..i])
    {
      assert t[..i + 1][..i] == t[..i];
      s := Step(s, Lookup(a, t[i]), a.epsilon);
      i := i + 1;
    }
    assert t[..i] == t;
  }

  /** Bit j of level 0 after a step: a wildcard slot kept, or position j - 1 matched. */
  lemma LevelZeroBit(x: bv32, mask: bv32, eps: bv32, r: bv32, j: nat)
    requires r == (x & eps) | ((x & mask) >> 1)
    ensures HasBit(r, j) <==> (HasBit(x, j) && HasBit(eps, j)) || (1 <= j < 32 && HasBit(x, j - 1) && HasBit(mask, j - 1))
  {
    var u, w := x & eps, (x & mask) >> 1;
    HasBitJoin(u, w, r, j);
    if j == 0 {
      LevelZeroBitFirst(x, mask, eps, u, w, j);
    } else {
      LevelZeroBitAfterFirst(x, mask, eps, u, w, j);
    }
  }

  lemma LevelZeroBitFirst(x: bv32, mask: bv32, eps: bv32, u: bv32, w: bv32, j: nat)
    requires u == x & eps && w == (x & mask) >> 1 && j == 0
    ensures HasBit(u, j) || HasBit(w, j) <==> HasBit(x, j) && HasBit(eps, j)
  {
    HasBitAnd(x, eps, j);
    MatchBit(x, mask, w, j);
  }

  lemma LevelZeroBitAfterFirst(x: bv32, mask: bv32, eps: bv32, u: bv32, w: bv32, j: nat)
    requires u == x & eps && w == (x & mask) >> 1 && j >= 1
    ensures HasBit(u, j) || HasBit(w, j) <==>
              (HasBit(x, j) && HasBit(eps, j)) || (j < 32 && HasBit(x, j - 1) && HasBit(mask, j - 1))
  {
    HasBitAnd(x, eps, j);
    MatchBit(x, mask, w, j);
  }

  /** Bit j after advancing over matching positions: position j - 1 was set and matched. */
  lemma MatchBit(x: bv32, mask: bv32, w: bv32, j: nat)
    requires w == (x & mask) >> 1
    ensures HasBit(w, j) <==> 1 <= j < 32 && HasBit(x, j - 1) && HasBit(mask, j - 1)
  {
    if j == 0 {
      HasBitShr(x & mask, j);
    } else {
      MatchBitAfterFirst(x, mask, w, j);
    }
  }

  lemma MatchBitAfterFirst(x: bv32, mask: bv32, w: bv32, j: nat)
    requires w == (x & mask) >> 1 && j >= 1
    ensures HasBit(w, j) <==> j < 32 && HasBit(x, j - 1) && HasBit(mask, j - 1)
  {
    HasBitShr(x & mask, j);
    HasBitAnd(x, mask, j - 1);
  }

  /** Bit j of an updated upper level, before the deletion closure. */
  lemma UpdateBit(x: bv32, below: bv32, mask: bv32, eps: bv32, r: bv32, j: nat)
    requires r == Update(x, below, mask, eps)
    ensures HasBit(r, j) <==>
              (HasBit(x, j) && HasBit(eps, j)) || (1 <= j < 32 && HasBit(x, j - 1) && HasBit(mask, j - 1))
              || (1 <= j < 32 && HasBit(below, j - 1)) || HasBit(below, j)
  {
    var r0 := (x & eps) | ((x & mask) >> 1);
    var r1 := r0 | (below >> 1);
    LevelZeroBit(x, mask, eps, r0, j);
    ClosureBit(r0, below, r1, j);
    HasBitJoin(r1, below, r, j);
  }

  /** Bit j after closing a deletion in from the new word of the level below. */
  lemma ClosureBit(n: bv32, lower: bv32, r: bv32, j: nat)
    requires r == n | (lower >> 1)
    ensures HasBit(r, j) <==> HasBit(n, j) || (1 <= j < 32 && HasBit(lower, j - 1))
  {
    HasBitOr(n, lower >> 1, j);
    HasBitShr(lower, j);
  }

  /** The cap: every budget from 3 on reads the same level as 3. */
  lemma FindCaps(a: Asearch, t: seq<nat>, ambig: u8)
    requires InTable(t) && ambig >= LEVELS - 1
    ensures Find(a, t, ambig) == Find(a, t, 3)
  {
  }

  /** Level 0 after a step, bit by bit. */
  lemma StepBitZero(s: Words, mask: bv32, eps: bv32, j: nat)
    ensures HasBit(Step(s, mask, eps).i0, j) <==>
              (HasBit(s.i0, j) && HasBit(eps, j)) || (1 <= j < 32 && HasBit(s.i0, j - 1) && HasBit(mask, j - 1))
  {
    LevelZeroBit(s.i0, mask, eps, Step(s, mask, eps).i0, j);
  }

  /** Level d in 1..3 after a step, bit by bit: the level's own moves, an edit from the
      old word below, or a deletion from the new word below. */
  lemma StepBitUpper(s: Words, mask: bv32, eps: bv32, d: nat, j: nat)
    requires 1 <= d < LEVELS
    ensures HasBit(Step(s, mask, eps).At(d), j) <==>
              (HasBit(s.At(d), j) && HasBit(eps, j)) || (1 <= j < 32 && HasBit(s.At(d), j - 1) && HasBit(mask, j - 1))
              || (1 <= j < 32 && HasBit(s.At(d - 1), j - 1)) || HasBit(s.At(d - 1), j)
              || (1 <= j < 32 && HasBit(Step(s, mask, eps).At(d - 1), j - 1))
  {
    if d == 1 {
      StepBitOne(s, mask, eps, j);
    } else if d == 2 {
      StepBitTwo(s, mask, eps, j);
    } else {
      StepBitThree(s, mask, eps, j);
    }
  }

  // One lemma per upper level: each fixes the level, so that its proof obligation
  // unfolds `Step` for that level only; all three in one obligation exceed the
  // verifier's budget.

  lemma StepBitOne(s: Words, mask: bv32, eps: bv32, j: nat)
    ensures HasBit(Step(s, mask, eps).i1, j) <==>
              (HasBit(s.i1, j) && HasBit(eps, j)) || (1 <= j < 32 && HasBit(s.i1, j - 1) && HasBit(mask, j - 1))
              || (1 <= j < 32 && HasBit(s.i0, j - 1)) || HasBit(s.i0, j)
              || (1 <= j < 32 && HasBit(Step(s, mask, eps).i0, j - 1))
  {
    StepBitLevel(s.i1, s.i0, Step(s, mask, eps).i0, Step(s, mask, eps).i1, mask, eps, j);
  }

  lemma StepBitTwo(s: Words, mask: bv32, eps: bv32, j: nat)
    ensures HasBit(Step(s, mask, eps).i2, j) <==>
              (HasBit(s.i2, j) && HasBit(eps, j)) || (1 <= j < 32 && HasBit(s.i2, j - 1) && HasBit(mask, j - 1))
              || (1 <= j < 32 && HasBit(s.i1, j - 1)) || HasBit(s.i1, j)
              || (1 <= j < 32 && HasBit(Step(s, mask, eps).i1, j - 1))
  {
    StepBitLevel(s.i2, s.i1, Step(s, mask, eps).i1, Step(s, mask, eps).i2, mask, eps, j);
  }

  lemma StepBitThree(s: Words, mask: bv32, eps: bv32, j: nat)
    ensures HasBit(Step(s, mask, eps).i3, j) <==>
              (HasBit(s.i3, j) && HasBit(eps, j)) || (1 <= j < 32 && HasBit(s.i3, j - 1) && HasBit(mask, j - 1))
              || (1 <= j < 32 && HasBit(s.i2, j - 1)) || HasBit(s.i2, j)
              || (1 <= j < 32 && HasBit(Step(s, mask, eps).i2, j - 1))
  {
    StepBitLevel(s.i3, s.i2, Step(s, mask, eps).i2, Step(s, mask, eps).i3, mask, eps, j);
  }

  /** One upper level: `x` its old word, `below` the old and `lower` the new word of the
      level under it, `r` its new word. */
  lemma StepBitLevel(x: bv32, below: bv32, lower: bv32, r: bv32, mask: bv32, eps: bv32, j: nat)
    requires r == Update(x, below, mask, eps) | (lower >> 1)
    ensures HasBit(r, j) <==>
              (HasBit(x, j) && HasBit(eps, j)) || (1 <= j < 32 && HasBit(x, j - 1) && HasBit(mask, j - 1))
              || (1 <= j < 32 && HasBit(below, j - 1)) || HasBit(below, j)
              || (1 <= j < 32 && HasBit(lower, j - 1))
  {
    var n := Update(x, below, mask, eps);
    UpdateBit(x, below, mask, eps, n, j);
    ClosureBit(n, lower, r, j);
  }
}

=== FILE: bits.dfy ===
/** Single-bit masks over the 32-bit words of the automaton.
    Pattern position j is the bit `INITPAT >> j`: position 0 is the most
    significant bit, and a position past 31 has no bit at all. */
module Bits {

  /** The cursor's starting value: pattern position 0. */
  const INITPAT: bv32 := 0x8000_0000

  /** The mask of pattern position j: INITPAT shifted right j times.
      This is exactly the compiler's cursor after j shifts, so it is 0 from 32 on. */
  function Bit(j: nat): bv32
  {
    if j == 0 then INITPAT else Bit(j - 1) >> 1
  }

  /** x has exactly one bit set. */
  predicate OneHot(x: bv32)
  {
    x != 0 && x & (x - 1) == 0
  }

  /** x and b share at least one set bit. */
  predicate Overlaps(x: bv32, b: bv32)
  {
    x & b != 0
  }

  /** Position j is present in the word x. */
  predicate HasBit(x: bv32, j: nat)
  {
    j < 32 && Overlaps(x, Bit(j))
  }

  lemma {:induction false} ZeroStays(j: nat, k: nat)
    requires Bit(j) == 0 || Bit(j) == 1
    requires j < k
    ensures Bit(k) == 0
    decreases k
  {
    if k - 1 > j {
      ZeroStays(j, k - 1);
    }
  }

  /** Positions 0..31 have one-hot masks; every later position has mask 0. */
  lemma {:induction false} BitShape(j: nat)
    ensures j < 32 ==> OneHot(Bit(j))
    ensures j >= 32 ==> Bit(j) == 0
    ensures j < 31 ==> Bit(j) != 1
    decreases j
  {
    LastPosition();
    if j >= 32 {
      ZeroStays(31, j);
    } else if j > 0 {
      BitShape(j - 1);
      if Bit(j) == 1 && j < 31 {
        ZeroStays(j, 31);
      }
      OneHotShift(Bit(j - 1));
    }
  }

  /** The cursor reaches the least significant bit after 31 shifts. */
  lemma LastPosition()
    ensures Bit(31) == 1
  {
    assert Bit(8) == 0x0080_0000;
    assert Bit(16) == 0x0000_8000;
    assert Bit(24) == 0x0000_0080;
  }

  lemma OneHotShift(b: bv32)
    requires OneHot(b) && b != 1
    ensures OneHot(b >> 1)
  {
  }

  lemma {:induction false} BitDecreasing(k: nat, j: nat)
    requires k < j < 32
    ensures Bit(j) < Bit(k)
    decreases j
  {
    BitShape(j - 1);
    if k < j - 1 {
      BitDecreasing(k, j - 1);
    }
  }

  lemma OneHotDisjoint(a: bv32, b: bv32)
    requires OneHot(a) && OneHot(b) && a != b
    ensures a & b == 0
  {
  }

  /** The mask of position k contains position j exactly when j == k. */
  lemma BitOfBit(k: nat, j: nat)
    ensures HasBit(Bit(k), j) <==> j < 32 && k == j
  {
    BitShape(k);
    BitShape(j);
    if j < 32 && k < 32 && k != j {
      if k < j { BitDecreasing(k, j); } else { BitDecreasing(j, k); }
      OneHotDisjoint(Bit(k), Bit(j));
    }
  }

  lemma MaskOr(x: bv32, y: bv32, b: bv32)
    ensures Overlaps(x | y, b) <==> Overlaps(x, b) || Overlaps(y, b)
  {
    assert (x | y) & b == (x & b) | (y & b);
  }

  lemma HasBitOr(x: bv32, y: bv32, j: nat)
    ensures HasBit(x | y, j) <==> HasBit(x, j) || HasBit(y, j)
  {
    MaskOr(x, y, Bit(j));
  }

  lemma BitNext(j: nat)
    ensures Bit(j + 1) == Bit(j) >> 1
  {
  }

  /** HasBitOr for a word already known to be the union. */
  lemma HasBitJoin(x: bv32, y: bv32, z: bv32, j: nat)
    requires z == x | y
    ensures HasBit(z, j) <==> HasBit(x, j) || HasBit(y, j)
  {
    HasBitOr(x, y, j);
  }

  lemma OneHotAnd(x: bv32, y: bv32, b: bv32)
    requires OneHot(b)
    ensures Overlaps(x & y, b) <==> Overlaps(x, b) && Overlaps(y, b)
  {
  }

  lemma HasBitAnd(x: bv32, y: bv32, j: nat)
    ensures HasBit(x & y, j) <==> HasBit(x, j) && HasBit(y, j)
  {
    if j < 32 {
      var b := Bit(j);
      BitShape(j);
      OneHotAnd(x, y, b);
    }
  }

  lemma OneHotShr(x: bv32, b: bv32)
    requires OneHot(b) && b != 1
    ensures Overlaps(x >> 1, b >> 1) <==> Overlaps(x, b)
  {
  }

  /** Shifting right by one moves every position one step further into the pattern. */
  lemma HasBitShr(x: bv32, j: nat)
    ensures HasBit(x >> 1, j) <==> 1 <= j < 32 && HasBit(x, j - 1)
  {
    if 1 <= j < 32 {
      var b := Bit(j - 1);
      BitShape(j - 1);
      OneHotShr(x, b);
      assert Bit(j) == b >> 1;
    }
  }

  lemma HasBitZero(j: nat)
    ensures !HasBit(0, j)
  {
  }
}

=== FILE: casefold.dfy ===
/** ASCII-only case folding of codepoints (the helpers `is_upper`, `is_lower`,
    `to_lower` and `to_upper`). Nothing outside A-Z and a-z is ever folded. */
module CaseFold {

  /** Distance between an ASCII capital and its small letter. */
  const CASE_OFFSET: nat := 0x20

  /** `is_lower`: the small letters 'a'..'z', all of them ASCII. */
  predicate IsLower(c: nat): (r: bool)
    ensures r ==> c < 0x80
  {
    0x61 <= c <= 0x7A
  }

  /** `is_upper`: the capitals 'A'..'Z', which sit exactly CASE_OFFSET below the small
      letters; no capital is also a small letter. */
  predicate IsUpper(c: nat): (r: bool)
    ensures r <==> IsLower(c + CASE_OFFSET)
    ensures r ==> !IsLower(c)
  {
    0x41 <= c <= 0x5A
  }

  predicate IsLetter(c: nat)
  {
    IsUpper(c) || IsLower(c)
  }

  /** `to_lower`: changes exactly the capitals, each to its small letter, so no capital
      survives and letterhood is kept. */
  function ToLower(c: nat): (r: nat)
    ensures !IsUpper(r)
    ensures r != c <==> IsUpper(c)
    ensures IsUpper(c) ==> IsLower(r) && r == c + CASE_OFFSET
    ensures IsLetter(r) <==> IsLetter(c)
  {
    if IsUpper(c) then c + CASE_OFFSET else c
  }

  /** `to_upper`: changes exactly the small letters, each to its capital, so no small
      letter survives and letterhood is kept. */
  function ToUpper(c: nat): (r: nat)
    ensures !IsLower(r)
    ensures r != c <==> IsLower(c)
    ensures IsLower(c) ==> IsUpper(r) && r + CASE_OFFSET == c
    ensures IsLetter(r) <==> IsLetter(c)
  {
    if IsLower(c) then c - CASE_OFFSET else c
  }

  /** The codepoints whose table entries the compiler writes for a pattern codepoint c:
      c itself and its two case variants. */
  function Variants(c: nat): (r: set<nat>)
    ensures c in r
    ensures !IsLetter(c) ==> r == {c}
  {
    {c, ToUpper(c), ToLower(c)}
  }

  /** Folding preserves letterhood: letters map to letters and every other codepoint
      is a fixed point of both directions. */
  lemma FoldKeepsLetters(c: nat)
    ensures IsLetter(ToLower(c)) <==> IsLetter(c)
    ensures IsLetter(ToUpper(c)) <==> IsLetter(c)
    ensures !IsLetter(c) ==> ToLower(c) == c && ToUpper(c) == c
  {
  }

  /** On the letter ranges the two directions undo each other. */
  lemma FoldRoundTrip(c: nat)
    ensures IsUpper(c) ==> ToUpper(ToLower(c)) == c
    ensures IsLower(c) ==> ToLower(ToUpper(c)) == c
  {
  }

  /** A letter and its counterpart of the other case have the same folded forms. */
  lemma FoldCanonical(c: nat)
    requires IsLetter(c)
    ensures ToLower(ToUpper(c)) == ToLower(c)
    ensures ToUpper(ToLower(c)) == ToUpper(c)
    ensures ToLower(c) != ToUpper(c)
  {
  }

  /** Which text codepoints a pattern codepoint q accepts: a letter accepts exactly
      the letters with the same lower-case form, any other codepoint only itself. */
  lemma VariantsMatch(q: nat, c: nat)
    ensures IsLetter(c) ==> (c in Variants(q) <==> IsLetter(q) && ToLower(q) == ToLower(c))
    ensures !IsLetter(c) ==> (c in Variants(q) <==> c == q)
  {
  }

  /** The space codepoint is never a case variant of anything but itself. */
  lemma SpaceOnlyItself(q: nat)
    ensures 0x20 in Variants(q) <==> q == 0x20
  {
  }
}

=== FILE: compiler.dfy ===
/** The pattern compiler (`Asearch::new`): one pass over the pattern's codepoints
    with a one-hot cursor, building the per-codepoint mask table, the wildcard
    (epsilon) mask and the accept mask. */
module Compiler {
  import opened Bits
  import opened CaseFold

  /** Size of the codepoint domain the table covers. */
  const MAXCHAR: nat := 0x10000

  /** The wildcard codepoint (an ASCII space). */
  const SPACE: nat := 0x20

  /** Every codepoint indexes the table; the source panics on any other. */
  predicate InTable(s: seq<nat>)
  {
    forall i :: 0 <= i < |s| ==> s[i] < MAXCHAR
  }

  /** `unpack`: a string as its sequence of Unicode code points, in order. */
  function Unpack(s: string): (r: seq<nat>)
    ensures |r| == |s|
    ensures forall i :: 0 <= i < |s| ==> r[i] == s[i] as nat
  {
    seq(|s|, i requires 0 <= i < |s| => s[i] as nat)
  }

  /** Unpacking loses nothing: distinct strings give distinct codepoint sequences. */
  lemma UnpackInjective(s: string, s': string)
    ensures Unpack(s) == Unpack(s') ==> s == s'
  {
    if Unpack(s) == Unpack(s') {
      assert forall i :: 0 <= i < |s| ==> s[i] as nat == Unpack(s)[i] == s'[i] as nat;
    }
  }

  /** A compiled pattern over machine words W. `shiftpat` stands for the table, an
      absent key reading as 0 (see `Lookup`). While compiling, `acceptpat` holds the
      moving cursor; its final value is the accept mask. The word type is a parameter
      only so that the fields are boxed for the verifier: with direct `bv32` fields,
      every proof obligation that mentions one grows far more expensive. The crate's
      type is `Machine<bv32>`. */
  datatype Machine<W> = Asearch(shiftpat: map<nat, W>, acceptpat: W, epsilon: W)

  /** The crate's compiled pattern: 32-bit words. */
  type Asearch = Machine<bv32>

  /** The entry of key k in a table, absent keys reading as 0. */
  function Entry(table: map<nat, bv32>, k: nat): bv32
  {
    if k in table then table[k] else 0
  }

  /** The table entry of codepoint c. */
  function Lookup(a: Asearch, c: nat): bv32
  {
    Entry(a.shiftpat, c)
  }

  /** The pattern's codepoints without its wildcards: the pattern positions, in order. */
  function NonSpace(p: seq<nat>): (r: seq<nat>)
    ensures |r| <= |p|
    ensures forall i :: 0 <= i < |r| ==> r[i] != SPACE && r[i] in p
  {
    if |p| == 0 then []
    else NonSpace(p[..|p| - 1]) + (if p[|p| - 1] == SPACE then [] else [p[|p| - 1]])
  }

  /** ORs the cursor m into the entries of keys, one write after another. */
  function Mark(t: map<nat, bv32>, keys: seq<nat>, m: bv32): map<nat, bv32>
    decreases |keys|
  {
    if |keys| == 0 then t else Mark(t[keys[0] := Entry(t, keys[0]) | m], keys[1..], m)
  }

  /** Keys not written keep their presence and their entry. */
  lemma {:induction false} MarkMiss(t: map<nat, bv32>, keys: seq<nat>, m: bv32, k: nat)
    requires k !in keys
    ensures k in Mark(t, keys, m) <==> k in t
    ensures Entry(Mark(t, keys, m), k) == Entry(t, k)
    decreases |keys|
  {
    if |keys| > 0 {
      MarkMiss(t[keys[0] := Entry(t, keys[0]) | m], keys[1..], m, k);
    }
  }

  /** Writing adds exactly the written keys. */
  lemma {:induction false} MarkDomain(t: map<nat, bv32>, keys: seq<nat>, m: bv32)
    ensures forall k :: k in Mark(t, keys, m) <==> k in t || k in keys
    decreases |keys|
  {
    if |keys| > 0 {
      MarkDomain(t[keys[0] := Entry(t, keys[0]) | m], keys[1..], m);
      assert forall k :: k in keys <==> k == keys[0] || k in keys[1..];
    }
  }

  /** A written key gains exactly the cursor bits, however often it is written. */
  lemma {:induction false} MarkHit(t: map<nat, bv32>, keys: seq<nat>, m: bv32, k: nat)
    requires k in keys
    ensures Entry(Mark(t, keys, m), k) == Entry(t, k) | m
    decreases |keys|, 1
  {
    if k in keys[1..] {
      MarkHitLater(t, keys, m, k);
    } else {
      MarkHitOnce(t, keys, m, k);
    }
  }

  lemma {:induction false} MarkHitLater(t: map<nat, bv32>, keys: seq<nat>, m: bv32, k: nat)
    requires |keys| > 0 && k in keys[1..]
    ensures Entry(Mark(t, keys, m), k) == Entry(t, k) | m
    decreases |keys|, 0
  {
    var t' := t[keys[0] := Entry(t, keys[0]) | m];
    MarkHit(t', keys[1..], m, k);
    MarkHitAgain(t, t', keys[0], m, k);
  }

  lemma MarkHitOnce(t: map<nat, bv32>, keys: seq<nat>, m: bv32, k: nat)
    requires |keys| > 0 && keys[0] == k && k !in keys[1..]
    ensures Entry(Mark(t, keys, m), k) == Entry(t, k) | m
  {
    MarkMiss(t[k := Entry(t, k) | m], keys[1..], m, k);
  }

  /** The same bit by bit. */
  lemma MarkHitBit(t: map<nat, bv32>, keys: seq<nat>, m: bv32, k: nat, j: nat)
    requires k in keys
    ensures HasBit(Entry(Mark(t, keys, m), k), j) <==> HasBit(Entry(t, k), j) || HasBit(m, j)
  {
    MarkHit(t, keys, m, k);
    HasBitJoin(Entry(t, k), m, Entry(Mark(t, keys, m), k), j);
  }

  lemma MarkHitAgain(t: map<nat, bv32>, t': map<nat, bv32>, x: nat, m: bv32, k: nat)
    requires t' == t[x := Entry(t, x) | m]
    ensures Entry(t', k) | m == Entry(t, k) | m
  {
    if x == k {
      OrIdempotent(Entry(t, k), m);
    }
  }

  lemma OrIdempotent(e: bv32, m: bv32)
    ensures (e | m) | m == e | m
  {
  }

  /** The codepoints one non-space pattern codepoint c writes, in the order the source writes them. */
  function Written(c: nat): (r: seq<nat>)
    ensures forall k :: k in r <==> k in Variants(c)
  {
    [c, ToUpper(c), ToLower(c)]
  }

  /** One iteration of the compiler's loop over codepoint c. A space marks the cursor's
      position as a wildcard slot; any other codepoint ORs the cursor into the table
      entries of c, of its upper-case and of its lower-case form, in that order, and
      then moves the cursor one position on. */
  function Feed(a: Asearch, c: nat): (r: Asearch)
    ensures c == SPACE ==> r.shiftpat == a.shiftpat && r.acceptpat == a.acceptpat
    ensures c != SPACE ==> r.epsilon == a.epsilon
    ensures forall k :: k in r.shiftpat <==> k in a.shiftpat || (c != SPACE && k in Variants(c))
  {
    if c == SPACE then a.(epsilon := a.epsilon | a.acceptpat)
    else
      MarkDomain(a.shiftpat, Written(c), a.acceptpat);
      Asearch(Mark(a.shiftpat, Written(c), a.acceptpat), a.acceptpat >> 1, a.epsilon)
  }

  /** A space only adds the cursor to the wildcard mask. */
  lemma FeedSpace(a: Asearch)
    ensures Feed(a, SPACE) == a.(epsilon := a.epsilon | a.acceptpat)
  {
  }

  /** Any other codepoint keeps the wildcard mask and moves the cursor one position on. */
  lemma FeedAdvances(a: Asearch, c: nat)
    requires c != SPACE
    ensures Feed(a, c).epsilon == a.epsilon
    ensures Feed(a, c).acceptpat == a.acceptpat >> 1
  {
  }

  /** Entries of codepoints that are not case variants of c are left alone, present or not. */
  lemma FeedKeeps(a: Asearch, c: nat, k: nat)
    requires k !in Variants(c)
    ensures k in Feed(a, c).shiftpat <==> k in a.shiftpat
    ensures Lookup(Feed(a, c), k) == Lookup(a, k)
  {
    if c != SPACE {
      MarkMiss(a.shiftpat, Written(c), a.acceptpat, k);
    }
  }

  /** The entries of c's case variants gain the cursor bit and nothing else,
      however many of the three writes land on the same entry. */
  lemma FeedWrites(a: Asearch, c: nat, k: nat)
    requires c != SPACE && k in Variants(c)
    ensures Lookup(Feed(a, c), k) == Lookup(a, k) | a.acceptpat
  {
    MarkHit(a.shiftpat, Written(c), a.acceptpat, k);
  }

  /** Feeding a codepoint below MAXCHAR keeps every key below MAXCHAR and never makes
      the space a key. */
  lemma FeedDomain(a: Asearch, x: nat)
    requires x < MAXCHAR && SPACE !in a.shiftpat && forall k :: k in a.shiftpat ==> k < MAXCHAR
    ensures SPACE !in Feed(a, x).shiftpat
    ensures forall k :: k in Feed(a, x).shiftpat ==> k < MAXCHAR
  {
    if x != SPACE {
      MarkDomain(a.shiftpat, Written(x), a.acceptpat);
    }
  }

  /** The cursor stays on a space and moves one position on any other codepoint. */
  lemma FeedCursor(a: Asearch, x: nat, n: nat)
    requires a.acceptpat == Bit(n)
    ensures x == SPACE ==> Feed(a, x).acceptpat == Bit(n)
    ensures x != SPACE ==> Feed(a, x).acceptpat == Bit(n + 1)
  {
    BitNext(n);
  }

  /** Two variants with equal entries still have equal entries afterwards. */
  lemma FeedWritesBoth(a: Asearch, x: nat, c: nat, d: nat)
    requires x != SPACE && c in Variants(x) && d in Variants(x) && Lookup(a, c) == Lookup(a, d)
    ensures Lookup(Feed(a, x), c) == Lookup(Feed(a, x), d)
  {
    FeedWrites(a, x, c);
    FeedWrites(a, x, d);
  }

  /** A space adds the cursor's bit to the wildcard mask. */
  lemma FeedSpaceBit(a: Asearch, j: nat)
    ensures HasBit(Feed(a, SPACE).epsilon, j) <==> HasBit(a.epsilon, j) || HasBit(a.acceptpat, j)
  {
    HasBitOr(a.epsilon, a.acceptpat, j);
  }

  /** The same fact bit by bit: bit j of a variant's entry is set afterwards exactly when
      it was set before or the cursor sits at j. */
  lemma FeedWritesBit(a: Asearch, c: nat, k: nat, j: nat)
    requires c != SPACE && k in Variants(c)
    ensures HasBit(Lookup(Feed(a, c), k), j) <==> HasBit(Lookup(a, k), j) || HasBit(a.acceptpat, j)
  {
    MarkHitBit(a.shiftpat, Written(c), a.acceptpat, k, j);
  }

  /** `Asearch::new`: fold `Feed` over the pattern, starting from an empty table,
      the cursor at INITPAT and no wildcard slots. */
  function Compile(p: seq<nat>): (r: Asearch)
    requires InTable(p)
    ensures r.acceptpat == Bit(|NonSpace(p)|)
    ensures SPACE !in r.shiftpat
    ensures forall c :: c in r.shiftpat ==> c < MAXCHAR
  {
    if |p| == 0 then Asearch(map[], INITPAT, 0)
    else
      var q := p[..|p| - 1];
      assert InTable(q);
      var a, x := Compile(q), p[|p| - 1];
      FeedDomain(a, x);
      FeedCursor(a, x, |NonSpace(q)|);
      Feed(a, x)
  }
}

/** What a compiled pattern holds, stated in terms of the pattern itself. */
module CompilerFacts {
  import opened Bits
  import opened CaseFold
  import opened Compiler

  /** j is a wildcard slot of p: some space in p follows exactly j non-space codepoints. */
  predicate WildcardAt(p: seq<nat>, j: nat)
  {
    exists i :: 0 <= i < |p| && p[i] == SPACE && |NonSpace(p[..i])| == j
  }

  /** Appending a codepoint adds a wildcard slot only when it is a space, and then at
      the current number of pattern positions. */
  lemma WildcardAtSnoc(q: seq<nat>, x: nat, j: nat)
    ensures WildcardAt(q + [x], j) <==> WildcardAt(q, j) || (x == SPACE && |NonSpace(q)| == j)
  {
    var p := q + [x];
    assert p[..|q|] == q;
    if WildcardAt(p, j) {
      var i :| 0 <= i < |p| && p[i] == SPACE && |NonSpace(p[..i])| == j;
      if i < |q| {
        assert p[..i] == q[..i];
        assert q[i] == SPACE;
      }
    }
    if WildcardAt(q, j) {
      var i :| 0 <= i < |q| && q[i] == SPACE && |NonSpace(q[..i])| == j;
      assert p[..i] == q[..i];
      assert p[i] == SPACE;
    }
    if x == SPACE && |NonSpace(q)| == j {
      assert p[|q|] == SPACE;
    }
  }

  lemma NonSpaceSnoc(q: seq<nat>, x: nat)
    ensures NonSpace(q + [x]) == NonSpace(q) + (if x == SPACE then [] else [x])
  {
    assert (q + [x])[..|q + [x]| - 1] == q;
  }

  /** The positions of a prefix of the pattern are a prefix of its positions. */
  lemma {:induction false} NonSpaceGrows(p: seq<nat>, k: nat, m: nat)
    requires k <= m <= |p|
    ensures NonSpace(p[..k]) <= NonSpace(p[..m])
    decreases m - k
  {
    if k < m {
      NonSpaceGrows(p, k, m - 1);
      assert p[..m] == p[..m - 1] + [p[m - 1]];
      NonSpaceSnoc(p[..m - 1], p[m - 1]);
    }
  }

  /** A non-space codepoint becomes pattern position |NonSpace(q)|. */
  lemma CompileSnoc(q: seq<nat>, x: nat)
    requires InTable(q + [x])
    ensures InTable(q)
    ensures Compile(q + [x]) == Feed(Compile(q), x)
  {
    assert (q + [x])[..|q + [x]| - 1] == q;
  }

  /** The accept mask is the cursor after n shifts, n the number of non-space codepoints:
      exactly one bit while n <= 31, and 0 from n = 32 on. */
  lemma AcceptShape(p: seq<nat>)
    requires InTable(p)
    ensures |NonSpace(p)| < 32 ==> OneHot(Compile(p).acceptpat) && HasBit(Compile(p).acceptpat, |NonSpace(p)|)
    ensures |NonSpace(p)| >= 32 ==> Compile(p).acceptpat == 0
  {
    BitShape(|NonSpace(p)|);
    BitOfBit(|NonSpace(p)|, |NonSpace(p)|);
  }

  /** Position j accepts text codepoint c: it exists, and c is its codepoint or a case variant. */
  predicate PositionAccepts(p: seq<nat>, j: nat, c: nat)
  {
    j < |NonSpace(p)| && c in Variants(NonSpace(p)[j])
  }

  /** Bit j of a table entry is set exactly when the j-th pattern position accepts codepoint c
      (the position's codepoint or one of its case variants). */
  lemma {:induction false} TableBit(p: seq<nat>, c: nat, j: nat)
    requires InTable(p)
    ensures HasBit(Lookup(Compile(p), c), j) <==> j < 32 && PositionAccepts(p, j, c)
    decreases |p|
  {
    if |p| == 0 {
      HasBitZero(j);
    } else {
      var q, x := p[..|p| - 1], p[|p| - 1];
      assert p == q + [x];
      CompileSnoc(q, x);
      TableBit(q, c, j);
      if x == SPACE {
        TableBitSpace(q, c, j);
      } else if c in Variants(x) {
        TableBitWritten(q, x, c, j);
      } else {
        TableBitKept(q, x, c, j);
      }
    }
  }

  /** Appending a codepoint adds at most one pattern position, at the end. */
  lemma PositionAcceptsSnoc(q: seq<nat>, x: nat, j: nat, c: nat)
    ensures x == SPACE ==> (PositionAccepts(q + [x], j, c) <==> PositionAccepts(q, j, c))
    ensures x != SPACE ==> (PositionAccepts(q + [x], j, c) <==>
                            PositionAccepts(q, j, c) || (j == |NonSpace(q)| && c in Variants(x)))
  {
    NonSpaceSnoc(q, x);
  }

  lemma TableBitSpace(q: seq<nat>, c: nat, j: nat)
    requires InTable(q + [SPACE])
    requires InTable(q) && (HasBit(Lookup(Compile(q), c), j) <==> j < 32 && PositionAccepts(q, j, c))
    ensures HasBit(Lookup(Compile(q + [SPACE]), c), j) <==> j < 32 && PositionAccepts(q + [SPACE], j, c)
  {
    CompileSnoc(q, SPACE);
    PositionAcceptsSnoc(q, SPACE, j, c);
    FeedSpace(Compile(q));
  }

  lemma TableBitWritten(q: seq<nat>, x: nat, c: nat, j: nat)
    requires InTable(q + [x]) && x != SPACE && c in Variants(x)
    requires InTable(q) && (HasBit(Lookup(Compile(q), c), j) <==> j < 32 && PositionAccepts(q, j, c))
    ensures HasBit(Lookup(Compile(q + [x]), c), j) <==> j < 32 && PositionAccepts(q + [x], j, c)
  {
    CompileSnoc(q, x);
    PositionAcceptsSnoc(q, x, j, c);
    FeedWritesBit(Compile(q), x, c, j);
    BitOfBit(|NonSpace(q)|, j);
  }

  lemma TableBitKept(q: seq<nat>, x: nat, c: nat, j: nat)
    requires InTable(q + [x]) && x != SPACE && c !in Variants(x)
    requires InTable(q) && (HasBit(Lookup(Compile(q), c), j) <==> j < 32 && PositionAccepts(q, j, c))
    ensures HasBit(Lookup(Compile(q + [x]), c), j) <==> j < 32 && PositionAccepts(q + [x], j, c)
  {
    CompileSnoc(q, x);
    PositionAcceptsSnoc(q, x, j, c);
    FeedKeeps(Compile(q), x, c);
  }

  /** Bit j of the wildcard mask is set exactly when j is a wildcard slot of the pattern
      (and j is one of the 32 positions). */
  lemma {:induction false} EpsilonBit(p: seq<nat>, j: nat)
    requires InTable(p)
    ensures HasBit(Compile(p).epsilon, j) <==> j < 32 && WildcardAt(p, j)
    decreases |p|
  {
    if |p| == 0 {
      HasBitZero(j);
    } else {
      var q, x := p[..|p| - 1], p[|p| - 1];
      assert p == q + [x];
      CompileSnoc(q, x);
      EpsilonBit(q, j);
      if x == SPACE {
        EpsilonBitSpace(q, j);
      } else {
        EpsilonBitKept(q, x, j);
      }
    }
  }

  lemma EpsilonBitSpace(q: seq<nat>, j: nat)
    requires InTable(q + [SPACE])
    requires InTable(q) && (HasBit(Compile(q).epsilon, j) <==> j < 32 && WildcardAt(q, j))
    ensures HasBit(Compile(q + [SPACE]).epsilon, j) <==> j < 32 && WildcardAt(q + [SPACE], j)
  {
    CompileSnoc(q, SPACE);
    WildcardAtSnoc(q, SPACE, j);
    FeedSpaceBit(Compile(q), j);
    BitOfBit(|NonSpace(q)|, j);
  }

  lemma EpsilonBitKept(q: seq<nat>, x: nat, j: nat)
    requires InTable(q + [x]) && x != SPACE
    requires InTable(q) && (HasBit(Compile(q).epsilon, j) <==> j < 32 && WildcardAt(q, j))
    ensures HasBit(Compile(q + [x]).epsilon, j) <==> j < 32 && WildcardAt(q + [x], j)
  {
    CompileSnoc(q, x);
    WildcardAtSnoc(q, x, j);
    FeedAdvances(Compile(q), x);
  }

  /** Matching is case-insensitive on ASCII letters: a letter and its counterpart of the
      other case have the same table entry. */
  lemma {:induction false} FoldSymmetry(p: seq<nat>, c: nat)
    requires InTable(p) && IsUpper(c)
    ensures Lookup(Compile(p), c) == Lookup(Compile(p), ToLower(c))
    decreases |p|
  {
    if |p| > 0 {
      var q, x := p[..|p| - 1], p[|p| - 1];
      assert p == q + [x];
      CompileSnoc(q, x);
      FoldSymmetry(q, c);
      VariantsMatch(x, c);
      VariantsMatch(x, ToLower(c));
      if x != SPACE && c in Variants(x) {
        FoldSymmetryWritten(q, x, c);
      } else {
        FoldSymmetryKept(q, x, c);
      }
    }
  }

  lemma FoldSymmetryWritten(q: seq<nat>, x: nat, c: nat)
    requires InTable(q + [x]) && x != SPACE && IsUpper(c) && c in Variants(x) && ToLower(c) in Variants(x)
    requires InTable(q) && Lookup(Compile(q), c) == Lookup(Compile(q), ToLower(c))
    ensures Lookup(Compile(q + [x]), c) == Lookup(Compile(q + [x]), ToLower(c))
  {
    CompileSnoc(q, x);
    FeedWritesBoth(Compile(q), x, c, ToLower(c));
  }

  lemma FoldSymmetryKept(q: seq<nat>, x: nat, c: nat)
    requires InTable(q + [x]) && IsUpper(c) && (x == SPACE || (c !in Variants(x) && ToLower(c) !in Variants(x)))
    requires InTable(q) && Lookup(Compile(q), c) == Lookup(Compile(q), ToLower(c))
    ensures Lookup(Compile(q + [x]), c) == Lookup(Compile(q + [x]), ToLower(c))
  {
    CompileSnoc(q, x);
    SpaceOnlyItself(c);
    SpaceOnlyItself(ToLower(c));
    FeedKeeps(Compile(q), x, c);
    FeedKeeps(Compile(q), x, ToLower(c));
  }

  /** A codepoint that is not a letter is accepted by exactly the positions holding it. */
  lemma NonLetterExact(p: seq<nat>, c: nat, j: nat)
    requires InTable(p) && !IsLetter(c)
    ensures HasBit(Lookup(Compile(p), c), j) <==> j < 32 && j < |NonSpace(p)| && NonSpace(p)[j] == c
  {
    TableBit(p, c, j);
    if j < |NonSpace(p)| {
      VariantsMatch(NonSpace(p)[j], c);
    }
  }

  /** Once 32 positions are taken the cursor is 0, and every later codepoint leaves the
      table, the wildcard mask and the accept mask as they were. */
  lemma LongPatternInert(q: seq<nat>, x: nat, c: nat)
    requires InTable(q + [x]) && |NonSpace(q)| >= 32
    ensures Lookup(Compile(q + [x]), c) == Lookup(Compile(q), c)
    ensures Compile(q + [x]).epsilon == Compile(q).epsilon
    ensures Compile(q + [x]).acceptpat == Compile(q).acceptpat == 0
  {
    CompileSnoc(q, x);
    AcceptShape(q);
    if x == SPACE {
      FeedSpace(Compile(q));
    } else if c in Variants(x) {
      FeedWrites(Compile(q), x, c);
      FeedAdvances(Compile(q), x);
    } else {
      FeedKeeps(Compile(q), x, c);
      FeedAdvances(Compile(q), x);
    }
  }
}

=== FILE: reference.dfy ===
/** What the automaton computes, stated without masks: an edit automaton over pattern
    positions, and the theorem that each bit of the bit-parallel state is exactly one of
    its reachable configurations. */
module Reference {
  import opened Bits
  import opened CaseFold
  import opened Compiler
  import opened CompilerFacts
  import opened Automaton

  /** After reading text t the automaton can be at pattern position j having spent d
      edits. From the start (position 0, no edits), each text codepoint c either
      stays on a wildcard slot, advances over a position that accepts c, or costs
      an edit: a substitution (advance without matching), an insertion (stay); a
      deletion advances a further position without reading anything, from a
      configuration of the level below already reached on the same text. Only
      positions 0..31 exist. */
  predicate Reach(p: seq<nat>, t: seq<nat>, d: nat, j: nat)
    decreases |t|, d
  {
    j < 32 &&
    if |t| == 0 then d == 0 && j == 0
    else
      var u, c := t[..|t| - 1], t[|t| - 1];
      (Reach(p, u, d, j) && WildcardAt(p, j))
      || (j >= 1 && Reach(p, u, d, j - 1) && PositionAccepts(p, j - 1, c))
      || (d >= 1 && Reach(p, u, d - 1, j))
      || (d >= 1 && j >= 1 && Reach(p, u, d - 1, j - 1))
      || (d >= 1 && j >= 1 && Reach(p, t, d - 1, j - 1))
  }

  /** The position before j, or 0. */
  function Before(j: nat): nat
  {
    if j >= 1 then j - 1 else 0
  }

  /** Refinement: bit j of level d of the state after text t is set exactly when
      position j is reachable with d edits. */
  lemma {:induction false} StateBit(p: seq<nat>, t: seq<nat>, d: nat, j: nat)
    requires InTable(p) && InTable(t) && d < LEVELS
    ensures HasBit(State(Compile(p), t).At(d), j) <==> Reach(p, t, d, j)
    decreases |t|, d
  {
    if |t| == 0 {
      StateBitEmpty(p, t, d, j);
    } else {
      var u := t[..|t| - 1];
      assert InTable(u);
      StateBit(p, u, d, j);
      StateBit(p, u, d, Before(j));
      if d == 0 {
        StateBitZero(p, t, j);
      } else {
        StateBit(p, u, d - 1, j);
        StateBit(p, u, d - 1, Before(j));
        StateBit(p, t, d - 1, Before(j));
        StateBitUpper(p, t, d, j);
      }
    }
  }

  lemma StateBitEmpty(p: seq<nat>, t: seq<nat>, d: nat, j: nat)
    requires InTable(p) && |t| == 0 && d < LEVELS
    ensures HasBit(State(Compile(p), t).At(d), j) <==> Reach(p, t, d, j)
  {
    BitOfBit(0, j);
    HasBitZero(j);
  }

  lemma StateBitZero(p: seq<nat>, t: seq<nat>, j: nat)
    requires InTable(p) && InTable(t) && |t| > 0
    requires InTable(t[..|t| - 1])
    requires HasBit(State(Compile(p), t[..|t| - 1]).i0, j) <==> Reach(p, t[..|t| - 1], 0, j)
    requires HasBit(State(Compile(p), t[..|t| - 1]).i0, Before(j)) <==> Reach(p, t[..|t| - 1], 0, Before(j))
    ensures HasBit(State(Compile(p), t).At(0), j) <==> Reach(p, t, 0, j)
  {
    var a, u, c := Compile(p), t[..|t| - 1], t[|t| - 1];
    StepBitZero(State(a, u), Lookup(a, c), a.epsilon, j);
    EpsilonBit(p, j);
    TableBit(p, c, Before(j));
  }

  lemma StateBitUpper(p: seq<nat>, t: seq<nat>, d: nat, j: nat)
    requires InTable(p) && InTable(t) && |t| > 0 && 1 <= d < LEVELS
    requires InTable(t[..|t| - 1])
    requires HasBit(State(Compile(p), t[..|t| - 1]).At(d), j) <==> Reach(p, t[..|t| - 1], d, j)
    requires HasBit(State(Compile(p), t[..|t| - 1]).At(d), Before(j)) <==> Reach(p, t[..|t| - 1], d, Before(j))
    requires HasBit(State(Compile(p), t[..|t| - 1]).At(d - 1), j) <==> Reach(p, t[..|t| - 1], d - 1, j)
    requires HasBit(State(Compile(p), t[..|t| - 1]).At(d - 1), Before(j)) <==> Reach(p, t[..|t| - 1], d - 1, Before(j))
    requires HasBit(State(Compile(p), t).At(d - 1), Before(j)) <==> Reach(p, t, d - 1, Before(j))
    ensures HasBit(State(Compile(p), t).At(d), j) <==> Reach(p, t, d, j)
  {
    var a, u, c := Compile(p), t[..|t| - 1], t[|t| - 1];
    StepBitUpper(State(a, u), Lookup(a, c), a.epsilon, d, j);
    EpsilonBit(p, j);
    TableBit(p, c, Before(j));
  }

  /** `find` answers whether the whole pattern (its last position) is reachable within
      the capped budget; a pattern of 32 or more positions is never found. */
  lemma FindSpec(p: seq<nat>, t: seq<nat>, ambig: u8)
    requires InTable(p) && InTable(t)
    ensures Find(Compile(p), t, ambig) <==> |NonSpace(p)| < 32 && Reach(p, t, Level(ambig), |NonSpace(p)|)
  {
    var n := |NonSpace(p)|;
    BitShape(n);
    if n < 32 {
      StateBit(p, t, Level(ambig), n);
    }
  }

  /** The empty text is found only by a pattern without positions, and only at budget
      0: the start state has nothing on the upper levels. */
  lemma EmptyText(p: seq<nat>, ambig: u8)
    requires InTable(p)
    ensures Find(Compile(p), [], ambig) <==> |NonSpace(p)| == 0 && Level(ambig) == 0
  {
    FindSpec(p, [], ambig);
  }

  /** A pattern with 32 or more positions is never found: its accept mask is 0. */
  lemma LongNeverFound(p: seq<nat>, t: seq<nat>, ambig: u8)
    requires InTable(p) && InTable(t) && |NonSpace(p)| >= 32
    ensures !Find(Compile(p), t, ambig)
  {
    FindSpec(p, t, ambig);
  }

  /** Reading the pattern's own first k codepoints reaches, without edits, the position
      after its last non-space one among them. */
  lemma {:induction false} ReachSelf(p: seq<nat>, k: nat)
    requires k <= |p| && |NonSpace(p)| < 32
    ensures Reach(p, p[..k], 0, |NonSpace(p[..k])|)
    decreases k
  {
    if k > 0 {
      ReachSelf(p, k - 1);
      if p[k - 1] == SPACE {
        ReachSelfWildcard(p, k);
      } else {
        ReachSelfAdvance(p, k);
      }
    }
  }

  lemma ReachSelfWildcard(p: seq<nat>, k: nat)
    requires 0 < k <= |p| && |NonSpace(p)| < 32 && p[k - 1] == SPACE
    requires Reach(p, p[..k - 1], 0, |NonSpace(p[..k - 1])|)
    ensures Reach(p, p[..k], 0, |NonSpace(p[..k])|)
  {
    var t, u := p[..k], p[..k - 1];
    assert t == u + [SPACE] && t[..|t| - 1] == u;
    NonSpaceSnoc(u, SPACE);
    NonSpaceGrows(p, k, |p|);
    assert p[..|p|] == p;
    assert WildcardAt(p, |NonSpace(u)|);
  }

  lemma ReachSelfAdvance(p: seq<nat>, k: nat)
    requires 0 < k <= |p| && |NonSpace(p)| < 32 && p[k - 1] != SPACE
    requires Reach(p, p[..k - 1], 0, |NonSpace(p[..k - 1])|)
    ensures Reach(p, p[..k], 0, |NonSpace(p[..k])|)
  {
    var t, u := p[..k], p[..k - 1];
    assert t[..|t| - 1] == u && t[|t| - 1] == p[k - 1];
    PositionOfPrefix(p, k);
  }

  /** The k-th codepoint of the pattern, when not a space, is the position numbered by
      the non-space codepoints before it, and it accepts itself. */
  lemma PositionOfPrefix(p: seq<nat>, k: nat)
    requires 0 < k <= |p| && p[k - 1] != SPACE
    ensures |NonSpace(p[..k])| == |NonSpace(p[..k - 1])| + 1 <= |NonSpace(p)|
    ensures PositionAccepts(p, |NonSpace(p[..k - 1])|, p[k - 1])
  {
    var t, u, x := p[..k], p[..k - 1], p[k - 1];
    assert t == u + [x];
    NonSpaceSnoc(u, x);
    NonSpaceGrows(p, k, |p|);
    assert p[..|p|] == p;
    assert NonSpace(p)[|NonSpace(u)|] == NonSpace(t)[|NonSpace(u)|] == x;
  }

  /** Every pattern that fits the word is found in itself at budget 0. */
  lemma ExactMatch(p: seq<nat>)
    requires InTable(p) && |NonSpace(p)| < 32
    ensures Find(Compile(p), p, 0)
  {
    ReachSelf(p, |p|);
    assert p[..|p|] == p;
    FindSpec(p, p, 0);
  }

  /** A pattern without wildcard slots. */
  predicate NoWildcards(p: seq<nat>)
  {
    forall i :: 0 <= i < |p| ==> p[i] != SPACE
  }

  /** Text t agrees with the start of pattern p up to ASCII case. */
  predicate CaseEqualPrefix(p: seq<nat>, t: seq<nat>)
  {
    |t| <= |p| && forall i :: 0 <= i < |t| ==> t[i] in Variants(p[i])
  }

  /** Without wildcards every codepoint of the pattern is a position. */
  lemma {:induction false} NonSpaceOfPlain(p: seq<nat>)
    requires NoWildcards(p)
    ensures NonSpace(p) == p
    decreases |p|
  {
    if |p| > 0 {
      var q := p[..|p| - 1];
      NonSpaceOfPlain(q);
      assert q + [p[|p| - 1]] == p;
    }
  }

  /** Without edits and wildcards the automaton only advances in step with the text:
      after t it is at position j exactly when j == |t| and t agrees with the start of
      the pattern up to case. */
  lemma {:induction false} ReachLevelZero(p: seq<nat>, t: seq<nat>, j: nat)
    requires NoWildcards(p) && |p| < 32
    ensures Reach(p, t, 0, j) <==> j == |t| && CaseEqualPrefix(p, t)
    decreases |t|
  {
    if |t| > 0 {
      var u := t[..|t| - 1];
      ReachZeroStep(p, t, j);
      CaseEqualPrefixSnoc(p, t);
      if j >= 1 {
        ReachLevelZero(p, u, j - 1);
        NonSpaceOfPlain(p);
      }
    }
  }

  /** Level 0 of a pattern without wildcards only advances over accepting positions. */
  lemma ReachZeroStep(p: seq<nat>, t: seq<nat>, j: nat)
    requires NoWildcards(p) && |t| > 0
    ensures Reach(p, t, 0, j) <==>
              1 <= j < 32 && Reach(p, t[..|t| - 1], 0, j - 1) && PositionAccepts(p, j - 1, t[|t| - 1])
  {
    assert !WildcardAt(p, j);
  }

  lemma CaseEqualPrefixSnoc(p: seq<nat>, t: seq<nat>)
    requires |t| > 0
    ensures CaseEqualPrefix(p, t) <==>
              CaseEqualPrefix(p, t[..|t| - 1]) && |t| - 1 < |p| && t[|t| - 1] in Variants(p[|t| - 1])
  {
    assert forall i :: 0 <= i < |t| - 1 ==> t[i] == t[..|t| - 1][i];
  }

  /** At budget 0 a pattern without wildcards is found exactly in the texts of its own
      length that agree with it up to ASCII case. `find` matches the whole text: a longer
      text with the pattern inside it, or a text one edit away, is not found. */
  lemma ZeroBudgetExact(p: seq<nat>, t: seq<nat>)
    requires InTable(p) && InTable(t) && NoWildcards(p) && |p| < 32
    ensures Find(Compile(p), t, 0) <==> |t| == |p| && forall i :: 0 <= i < |t| ==> t[i] in Variants(p[i])
  {
    NonSpaceOfPlain(p);
    FindSpec(p, t, 0);
    ReachLevelZero(p, t, |p|);
  }

  /** Text t agrees with pattern piece q codepoint by codepoint, up to ASCII case. */
  predicate Agrees(q: seq<nat>, t: seq<nat>)
  {
    |q| == |t| && forall i :: 0 <= i < |t| ==> t[i] in Variants(q[i])
  }

  lemma AgreesSnoc(q: seq<nat>, t: seq<nat>)
    requires |t| > 0
    ensures Agrees(q, t) <==>
              |q| > 0 && Agrees(q[..|q| - 1], t[..|t| - 1]) && t[|t| - 1] in Variants(q[|q| - 1])
  {
    assert forall i :: 0 <= i < |t| - 1 ==> t[i] == t[..|t| - 1][i];
    if |q| > 0 {
      assert forall i :: 0 <= i < |q| - 1 ==> q[i] == q[..|q| - 1][i];
    }
  }

  /** Appending codepoints without wildcards appends them to the pattern positions. */
  lemma {:induction false} NonSpaceAppendPlain(q: seq<nat>, b: seq<nat>)
    requires NoWildcards(b)
    ensures NonSpace(q + b) == NonSpace(q) + b
    decreases |b|
  {
    if |b| > 0 {
      var b' := b[..|b| - 1];
      NonSpaceAppendPlain(q, b');
      var x := b[|b| - 1];
      assert b == b' + [x] && x != SPACE;
      assert q + b == (q + b') + [x];
      NonSpaceSnoc(q + b', x);
      assert NonSpace(q + b) == (NonSpace(q) + b') + [x];
    } else {
      assert q + b == q;
    }
  }

  /** A pattern with one wildcard between two plain pieces a and b has the positions
      a + b. */
  lemma OneWildcardPositions(a: seq<nat>, b: seq<nat>)
    requires NoWildcards(a) && NoWildcards(b)
    ensures NonSpace(a + [SPACE] + b) == a + b
  {
    NonSpaceOfPlain(a);
    NonSpaceSnoc(a, SPACE);
    NonSpaceAppendPlain(a + [SPACE], b);
  }

  /** ... and its only wildcard slot at |a|. */
  lemma OneWildcardSlot(a: seq<nat>, b: seq<nat>, j: nat)
    requires NoWildcards(a) && NoWildcards(b)
    ensures WildcardAt(a + [SPACE] + b, j) <==> j == |a|
  {
    var p := a + [SPACE] + b;
    assert p[..|a|] == a && p[|a|] == SPACE;
    NonSpaceOfPlain(a);
    if WildcardAt(p, j) {
      var i :| 0 <= i < |p| && p[i] == SPACE && |NonSpace(p[..i])| == j;
      assert i == |a|;
    }
  }

  /** The level-0 configurations of the pattern a + [SPACE] + b: before the slot the
      text is a prefix of a up to case; from the slot on, the text starts with a and ends
      with the first j - |a| codepoints of b, up to case, and the slot absorbed the rest. */
  predicate WildZero(a: seq<nat>, b: seq<nat>, t: seq<nat>, j: nat)
  {
    if j < |a| then j == |t| && CaseEqualPrefix(a, t)
    else j <= |a| + |b| && j <= |t| && Agrees(a, t[..|a|]) && Agrees(b[..j - |a|], t[|t| - (j - |a|)..])
  }

  /** One text codepoint at level 0 of a + [SPACE] + b: stay on the slot, or advance
      over an accepting position. */
  lemma ReachWildStep(a: seq<nat>, b: seq<nat>, t: seq<nat>, j: nat)
    requires NoWildcards(a) && NoWildcards(b) && |t| > 0
    ensures Reach(a + [SPACE] + b, t, 0, j) <==>
              j < 32 && ((Reach(a + [SPACE] + b, t[..|t| - 1], 0, j) && j == |a|)
                         || (1 <= j <= |a| + |b| && Reach(a + [SPACE] + b, t[..|t| - 1], 0, j - 1)
                             && t[|t| - 1] in Variants((a + b)[j - 1])))
  {
    OneWildcardPositions(a, b);
    OneWildcardSlot(a, b, j);
  }

  /** `WildZero` moves with the same step. */
  lemma WildZeroStep(a: seq<nat>, b: seq<nat>, t: seq<nat>, j: nat)
    requires |t| > 0
    ensures WildZero(a, b, t, j) <==>
              (WildZero(a, b, t[..|t| - 1], j) && j == |a|)
              || (1 <= j <= |a| + |b| && WildZero(a, b, t[..|t| - 1], j - 1)
                  && t[|t| - 1] in Variants((a + b)[j - 1]))
  {
    if j < |a| {
      WildZeroBefore(a, b, t, j);
    } else if j == |a| {
      WildZeroAt(a, b, t);
    } else if j <= |a| + |b| {
      WildZeroAfter(a, b, t, j);
    }
  }

  lemma WildZeroBefore(a: seq<nat>, b: seq<nat>, t: seq<nat>, j: nat)
    requires |t| > 0 && j < |a|
    ensures WildZero(a, b, t, j) <==>
              1 <= j && WildZero(a, b, t[..|t| - 1], j - 1) && t[|t| - 1] in Variants(a[j - 1])
  {
    CaseEqualPrefixSnoc(a, t);
  }

  lemma WildZeroAt(a: seq<nat>, b: seq<nat>, t: seq<nat>)
    requires |t| > 0
    ensures WildZero(a, b, t, |a|) <==>
              WildZero(a, b, t[..|t| - 1], |a|)
              || (1 <= |a| && WildZero(a, b, t[..|t| - 1], |a| - 1) && t[|t| - 1] in Variants(a[|a| - 1]))
  {
    var u := t[..|t| - 1];
    assert b[..0] == [] && t[|t|..] == [] && u[|u|..] == [];
    if |t| > |a| {
      assert u[..|a|] == t[..|a|];
    } else if |t| == |a| {
      assert t[..|a|] == t;
      CaseEqualPrefixSnoc(a, t);
      AgreesSnoc(a, t);
    }
  }

  lemma WildZeroAfter(a: seq<nat>, b: seq<nat>, t: seq<nat>, j: nat)
    requires |t| > 0 && |a| < j <= |a| + |b|
    ensures WildZero(a, b, t, j) <==>
              WildZero(a, b, t[..|t| - 1], j - 1) && t[|t| - 1] in Variants(b[j - 1 - |a|])
  {
    var u, k := t[..|t| - 1], j - |a|;
    if j <= |t| {
      assert u[..|a|] == t[..|a|];
      var s := t[|t| - k..];
      assert s[..|s| - 1] == u[|u| - (k - 1)..] && s[|s| - 1] == t[|t| - 1];
      assert b[..k][..k - 1] == b[..k - 1];
      AgreesSnoc(b[..k], s);
    }
  }

  /** Level 0 of a + [SPACE] + b is exactly `WildZero`. */
  lemma {:induction false} ReachWildZero(a: seq<nat>, b: seq<nat>, t: seq<nat>, j: nat)
    requires NoWildcards(a) && NoWildcards(b) && |a| + |b| < 32
    ensures Reach(a + [SPACE] + b, t, 0, j) <==> WildZero(a, b, t, j)
    decreases |t|
  {
    if |t| == 0 {
      assert b[..0] == [] && t[..|a|] == t[0..] == [] <== j == |a| == 0;
    } else {
      var u := t[..|t| - 1];
      ReachWildStep(a, b, t, j);
      WildZeroStep(a, b, t, j);
      ReachWildZero(a, b, u, j);
      if j >= 1 {
        ReachWildZero(a, b, u, j - 1);
      }
    }
  }

  /** A space in the pattern matches any run of text codepoints, the empty run included:
      at budget 0, a + [SPACE] + b is found exactly in the texts that start with a and end
      with b up to ASCII case, with the two not overlapping. */
  lemma WildcardMatch(a: seq<nat>, b: seq<nat>, t: seq<nat>)
    requires InTable(a + [SPACE] + b) && InTable(t)
    requires NoWildcards(a) && NoWildcards(b) && |a| + |b| < 32
    ensures Find(Compile(a + [SPACE] + b), t, 0) <==>
              |a| + |b| <= |t| && Agrees(a, t[..|a|]) && Agrees(b, t[|t| - |b|..])
  {
    FindWildZero(a, b, t);
    WildZeroWhole(a, b, t);
  }

  lemma WildZeroWhole(a: seq<nat>, b: seq<nat>, t: seq<nat>)
    ensures WildZero(a, b, t, |a| + |b|) <==>
              |a| + |b| <= |t| && Agrees(a, t[..|a|]) && Agrees(b, t[|t| - |b|..])
  {
    assert b[..|b|] == b;
  }

  lemma FindWildZero(a: seq<nat>, b: seq<nat>, t: seq<nat>)
    requires InTable(a + [SPACE] + b) && InTable(t)
    requires NoWildcards(a) && NoWildcards(b) && |a| + |b| < 32
    ensures Find(Compile(a + [SPACE] + b), t, 0) <==> WildZero(a, b, t, |a| + |b|)
  {
    var p := a + [SPACE] + b;
    OneWildcardPositions(a, b);
    FindSpec(p, t, 0);
    ReachWildZero(a, b, t, |a| + |b|);
  }

  /** The wildcard absorbs the middle run y, whatever it is. */
  lemma WildcardAbsorbs(a: seq<nat>, b: seq<nat>, x: seq<nat>, y: seq<nat>, z: seq<nat>)
    requires InTable(a + [SPACE] + b) && InTable(x + y + z)
    requires NoWildcards(a) && NoWildcards(b) && |a| + |b| < 32
    requires Agrees(a, x) && Agrees(b, z)
    ensures Find(Compile(a + [SPACE] + b), x + y + z, 0)
  {
    var t := x + y + z;
    assert t[..|a|] == x && t[|t| - |b|..] == z;
    WildcardMatch(a, b, t);
  }

  function Min(a: nat, b: nat): nat
  {
    if a <= b then a else b
  }

  /** Levenshtein distance from pattern P to text T, where a text codepoint matches a
      pattern codepoint when it is one of its case variants: the fewest insertions,
      deletions and substitutions that turn P into T. */
  function Lev(P: seq<nat>, T: seq<nat>): nat
    decreases |P| + |T|
  {
    if |P| == 0 then |T|
    else if |T| == 0 then |P|
    else
      var P', T' := P[..|P| - 1], T[..|T| - 1];
      var cost := if T[|T| - 1] in Variants(P[|P| - 1]) then 0 else 1;
      Min(Min(Lev(P', T) + 1, Lev(P, T') + 1), Lev(P', T') + cost)
  }

  /** One more text codepoint costs at most one insertion. */
  lemma LevInsert(P: seq<nat>, T: seq<nat>)
    requires |T| > 0
    ensures Lev(P, T) <= Lev(P, T[..|T| - 1]) + 1
  {
  }

  /** One more pattern codepoint costs at most one deletion. */
  lemma LevDelete(P: seq<nat>, T: seq<nat>)
    requires |P| > 0
    ensures Lev(P, T) <= Lev(P[..|P| - 1], T) + 1
  {
  }

  /** One more codepoint on both sides costs at most a substitution, and nothing when
      the text codepoint matches. */
  lemma LevDiagonal(P: seq<nat>, T: seq<nat>)
    requires |P| > 0 && |T| > 0
    ensures Lev(P, T) <= Lev(P[..|P| - 1], T[..|T| - 1]) + 1
    ensures T[|T| - 1] in Variants(P[|P| - 1]) ==> Lev(P, T) <= Lev(P[..|P| - 1], T[..|T| - 1])
  {
  }

  /** The last move that reaches a configuration of a pattern without wildcards. */
  datatype Edit = Match | Insert | Substitute | Delete

  /** Text t is within d edits of the first j pattern codepoints (of the whole pattern,
      once j has run past its end). */
  predicate Within(p: seq<nat>, t: seq<nat>, d: nat, j: nat)
  {
    Lev(p[..Min(j, |p|)], t) <= d
  }

  /** Every reachable configuration is honest about its edits: if the automaton can be at
      position j with d edits after text t, the text is within d edits of the first j
      pattern codepoints. */
  lemma {:induction false} ReachSound(p: seq<nat>, t: seq<nat>, d: nat, j: nat)
    requires NoWildcards(p) && Reach(p, t, d, j)
    ensures Within(p, t, d, j)
    decreases |t|, d
  {
    if |t| > 0 {
      var u := t[..|t| - 1];
      var step := ReachSoundCases(p, t, d, j);
      if step == Match {
        ReachSound(p, u, d, j - 1);
        WithinMatch(p, t, d, j);
      } else if step == Insert {
        ReachSound(p, u, d - 1, j);
        WithinInsert(p, t, d, j);
      } else if step == Substitute {
        ReachSound(p, u, d - 1, j - 1);
        WithinSubstitute(p, t, d, j);
      } else {
        ReachSound(p, t, d - 1, j - 1);
        WithinDelete(p, t, d, j);
      }
    }
  }

  /** How a configuration of a pattern without wildcards is reached on a non-empty text:
      a match, an insertion, a substitution or a deletion. */
  lemma ReachSoundCases(p: seq<nat>, t: seq<nat>, d: nat, j: nat) returns (step: Edit)
    requires NoWildcards(p) && Reach(p, t, d, j) && |t| > 0
    ensures step == Match ==> j >= 1 && Reach(p, t[..|t| - 1], d, j - 1) && j <= |p| && t[|t| - 1] in Variants(p[j - 1])
    ensures step == Insert ==> d >= 1 && Reach(p, t[..|t| - 1], d - 1, j)
    ensures step == Substitute ==> d >= 1 && j >= 1 && Reach(p, t[..|t| - 1], d - 1, j - 1)
    ensures step == Delete ==> d >= 1 && j >= 1 && Reach(p, t, d - 1, j - 1)
  {
    NonSpaceOfPlain(p);
    assert !WildcardAt(p, j);
    var u, c := t[..|t| - 1], t[|t| - 1];
    if j >= 1 && Reach(p, u, d, j - 1) && PositionAccepts(p, j - 1, c) {
      step := Match;
    } else if d >= 1 && Reach(p, u, d - 1, j) {
      step := Insert;
    } else if d >= 1 && j >= 1 && Reach(p, u, d - 1, j - 1) {
      step := Substitute;
    } else {
      step := Delete;
    }
  }

  lemma WithinMatch(p: seq<nat>, t: seq<nat>, d: nat, j: nat)
    requires |t| > 0 && 1 <= j <= |p| && t[|t| - 1] in Variants(p[j - 1])
    requires Within(p, t[..|t| - 1], d, j - 1)
    ensures Within(p, t, d, j)
  {
    var P := p[..j];
    assert Min(j, |p|) == j && Min(j - 1, |p|) == j - 1;
    assert P[..|P| - 1] == p[..j - 1] && P[|P| - 1] == p[j - 1];
    LevDiagonal(P, t);
  }

  lemma WithinInsert(p: seq<nat>, t: seq<nat>, d: nat, j: nat)
    requires |t| > 0 && 1 <= d
    requires Within(p, t[..|t| - 1], d - 1, j)
    ensures Within(p, t, d, j)
  {
    LevInsert(p[..Min(j, |p|)], t);
  }

  lemma WithinSubstitute(p: seq<nat>, t: seq<nat>, d: nat, j: nat)
    requires |t| > 0 && 1 <= j && 1 <= d
    requires Within(p, t[..|t| - 1], d - 1, j - 1)
    ensures Within(p, t, d, j)
  {
    if j <= |p| {
      var P := p[..j];
      assert P[..|P| - 1] == p[..j - 1];
      LevDiagonal(P, t);
    } else {
      LevInsert(p[..|p|], t);
    }
  }

  lemma WithinDelete(p: seq<nat>, t: seq<nat>, d: nat, j: nat)
    requires 1 <= j && 1 <= d
    requires Within(p, t, d - 1, j - 1)
    ensures Within(p, t, d, j)
  {
    if j <= |p| {
      var P := p[..j];
      assert P[..|P| - 1] == p[..j - 1];
      LevDelete(P, t);
    }
  }

  /** `find` is sound for Levenshtein distance: for a pattern without wildcards, a text
      found at budget k is within the capped budget of edits of the pattern. It is not
      complete: see `Vectors.NotComplete`. */
  lemma FindSound(p: seq<nat>, t: seq<nat>, k: u8)
    requires InTable(p) && InTable(t) && NoWildcards(p)
    ensures Find(Compile(p), t, k) ==> Lev(p, t) <= Level(k)
  {
    FindSpec(p, t, k);
    NonSpaceOfPlain(p);
    if Find(Compile(p), t, k) {
      ReachSound(p, t, Level(k), |p|);
      assert p[..|p|] == p;
    }
  }

  /** Dropping the first pattern codepoint costs at most one edit: a text that agrees
      with the rest of the pattern up to case is within one edit of it. */
  lemma {:induction false} LevLeadingDeletion(x: nat, Q: seq<nat>, T: seq<nat>)
    requires |T| == |Q| && forall i :: 0 <= i < |T| ==> T[i] in Variants(Q[i])
    ensures Lev([x] + Q, T) <= 1
    decreases |Q|
  {
    if |Q| > 0 {
      var P := [x] + Q;
      var Q', T' := Q[..|Q| - 1], T[..|T| - 1];
      LevLeadingDeletion(x, Q', T');
      assert P[..|P| - 1] == [x] + Q' && P[|P| - 1] == Q[|Q| - 1];
      LevDiagonal(P, T);
    }
  }

  /** The table entry of a capital is that of its small letter. */
  lemma FoldLookup(p: seq<nat>, c: nat)
    requires InTable(p)
    ensures Lookup(Compile(p), c) == Lookup(Compile(p), ToLower(c))
  {
    if IsUpper(c) {
      FoldSymmetry(p, c);
    }
  }

  /** Matching ignores ASCII case in the text: texts that agree up to case folding drive
      the automaton to the same state, so `find` gives the same answer on both. */
  lemma {:induction false} CaseBlind(p: seq<nat>, t: seq<nat>, t': seq<nat>, ambig: u8)
    requires InTable(p) && InTable(t) && InTable(t') && |t| == |t'|
    requires forall i :: 0 <= i < |t| ==> ToLower(t[i]) == ToLower(t'[i])
    ensures State(Compile(p), t) == State(Compile(p), t')
    ensures Find(Compile(p), t, ambig) == Find(Compile(p), t', ambig)
    decreases |t|
  {
    if |t| > 0 {
      var u, u' := t[..|t| - 1], t'[..|t'| - 1];
      assert InTable(u) && InTable(u');
      CaseBlind(p, u, u', ambig);
      FoldLookup(p, t[|t| - 1]);
      FoldLookup(p, t'[|t| - 1]);
    }
  }
}

=== FILE: vectors.dfy ===
/** The crate's own test assertions, plus cases beyond them: the whole text is matched
    (`AbcdeShifted`), a missing first codepoint can cost a single edit (`AabHeadless`),
    and a larger budget can answer false where a smaller one answered true
    (`NotMonotone`, `EmptyOnEmpty`). Each is derived through the refinement theorem:
    the reachable configurations are computed prefix by prefix. */
module Vectors {
  import opened CaseFold
  import opened Compiler
  import opened CompilerFacts
  import opened Automaton
  import opened Reference

  const ABCDE: seq<nat> := [0x61, 0x62, 0x63, 0x64, 0x65]

  lemma AbcdeShape1()
    ensures NonSpace([0x61]) == [0x61]
  {
    NonSpaceSnoc([], 0x61);
  }

  lemma AbcdeShape2()
    ensures NonSpace([0x61, 0x62]) == [0x61, 0x62]
  {
    AbcdeShape1();
    assert [0x61] + [0x62] == [0x61, 0x62];
    NonSpaceSnoc([0x61], 0x62);
  }

  lemma AbcdeShape3()
    ensures NonSpace([0x61, 0x62, 0x63]) == [0x61, 0x62, 0x63]
  {
    AbcdeShape2();
    assert [0x61, 0x62] + [0x63] == [0x61, 0x62, 0x63];
    NonSpaceSnoc([0x61, 0x62], 0x63);
  }

  lemma AbcdeShape4()
    ensures NonSpace([0x61, 0x62, 0x63, 0x64]) == [0x61, 0x62, 0x63, 0x64]
  {
    AbcdeShape3();
    assert [0x61, 0x62, 0x63] + [0x64] == [0x61, 0x62, 0x63, 0x64];
    NonSpaceSnoc([0x61, 0x62, 0x63], 0x64);
  }

  lemma AbcdeShape()
    ensures NonSpace(ABCDE) == [0x61, 0x62, 0x63, 0x64, 0x65]
  {
    AbcdeShape4();
    assert [0x61, 0x62, 0x63, 0x64] + [0x65] == ABCDE;
    NonSpaceSnoc([0x61, 0x62, 0x63, 0x64], 0x65);
  }

  lemma AbcdeUnpacked()
    ensures Unpack("abcde") == ABCDE && |NonSpace(ABCDE)| == 5
  {
    AbcdeShape();
  }

  lemma AbcdeWildcards()
    ensures forall j :: WildcardAt(ABCDE, j) <==> false
  {
  }

  /** The positions that accept text codepoint '?' (U+003F). */
  lemma AbcdeAcceptsQuestionMark()
    ensures forall j :: PositionAccepts(ABCDE, j, 0x3F) <==> false
  {
    AbcdeShape();
  }

  /** The positions that accept text codepoint 'B' (U+0042). */
  lemma AbcdeAcceptsCapitalB()
    ensures forall j :: PositionAccepts(ABCDE, j, 0x42) <==> j == 1
  {
    AbcdeShape();
    assert 0x42 !in Variants(0x61);
    assert 0x42 in Variants(0x62);
    assert 0x42 !in Variants(0x63);
    assert 0x42 !in Variants(0x64);
    assert 0x42 !in Variants(0x65);
  }

  /** The positions that accept text codepoint 'C' (U+0043). */
  lemma AbcdeAcceptsCapitalC()
    ensures forall j :: PositionAccepts(ABCDE, j, 0x43) <==> j == 2
  {
    AbcdeShape();
    assert 0x43 !in Variants(0x61);
    assert 0x43 !in Variants(0x62);
    assert 0x43 in Variants(0x63);
    assert 0x43 !in Variants(0x64);
    assert 0x43 !in Variants(0x65);
  }

  /** The positions that accept text codepoint 'D' (U+0044). */
  lemma AbcdeAcceptsCapitalD()
    ensures forall j :: PositionAccepts(ABCDE, j, 0x44) <==> j == 3
  {
    AbcdeShape();
    assert 0x44 !in Variants(0x61);
    assert 0x44 !in Variants(0x62);
    assert 0x44 !in Variants(0x63);
    assert 0x44 in Variants(0x64);
    assert 0x44 !in Variants(0x65);
  }

  /** The positions that accept text codepoint 'X' (U+0058). */
  lemma AbcdeAcceptsCapitalX()
    ensures forall j :: PositionAccepts(ABCDE, j, 0x58) <==> false
  {
    AbcdeShape();
    assert 0x58 !in Variants(0x61);
    assert 0x58 !in Variants(0x62);
    assert 0x58 !in Variants(0x63);
    assert 0x58 !in Variants(0x64);
    assert 0x58 !in Variants(0x65);
  }

  /** The positions that accept text codepoint 'a' (U+0061). */
  lemma AbcdeAcceptsSmallA()
    ensures forall j :: PositionAccepts(ABCDE, j, 0x61) <==> j == 0
  {
    AbcdeShape();
    assert 0x61 in Variants(0x61);
    assert 0x61 !in Variants(0x62);
    assert 0x61 !in Variants(0x63);
    assert 0x61 !in Variants(0x64);
    assert 0x61 !in Variants(0x65);
  }

  /** The positions that accept text codepoint 'b' (U+0062). */
  lemma AbcdeAcceptsSmallB()
    ensures forall j :: PositionAccepts(ABCDE, j, 0x62) <==> j == 1
  {
    AbcdeShape();
    assert 0x62 !in Variants(0x61);
    assert 0x62 in Variants(0x62);
    assert 0x62 !in Variants(0x63);
    assert 0x62 !in Variants(0x64);
    assert 0x62 !in Variants(0x65);
  }

  /** The positions that accept text codepoint 'c' (U+0063). */
  lemma AbcdeAcceptsSmallC()
    ensures forall j :: PositionAccepts(ABCDE, j, 0x63) <==> j == 2
  {
    AbcdeShape();
    assert 0x63 !in Variants(0x61);
    assert 0x63 !in Variants(0x62);
    assert 0x63 in Variants(0x63);
    assert 0x63 !in Variants(0x64);
    assert 0x63 !in Variants(0x65);
  }

  /** The positions that accept text codepoint 'd' (U+0064). */
  lemma AbcdeAcceptsSmallD()
    ensures forall j :: PositionAccepts(ABCDE, j, 0x64) <==> j == 3
  {
    AbcdeShape();
    assert 0x64 !in Variants(0x61);
    assert 0x64 !in Variants(0x62);
    assert 0x64 !in Variants(0x63);
    assert 0x64 in Variants(0x64);
    assert 0x64 !in Variants(0x65);
  }

  /** The positions that accept text codepoint 'e' (U+0065). */
  lemma AbcdeAcceptsSmallE()
    ensures forall j :: PositionAccepts(ABCDE, j, 0x65) <==> j == 4
  {
    AbcdeShape();
    assert 0x65 !in Variants(0x61);
    assert 0x65 !in Variants(0x62);
    assert 0x65 !in Variants(0x63);
    assert 0x65 !in Variants(0x64);
    assert 0x65 in Variants(0x65);
  }

  /** The positions that accept text codepoint 'x' (U+0078). */
  lemma AbcdeAcceptsSmallX()
    ensures forall j :: PositionAccepts(ABCDE, j, 0x78) <==> false
  {
    AbcdeShape();
    assert 0x78 !in Variants(0x61);
    assert 0x78 !in Variants(0x62);
    assert 0x78 !in Variants(0x63);
    assert 0x78 !in Variants(0x64);
    assert 0x78 !in Variants(0x65);
  }

  // Reach<V>Prefix<k>: the configurations reachable after the first k codepoints
  // of the text of vector V.

  lemma ReachAbcdeStart()
    ensures forall j :: Reach(ABCDE, [], 0, j) <==> j == 0
    ensures forall j :: Reach(ABCDE, [], 1, j) <==> false
    ensures forall j :: Reach(ABCDE, [], 2, j) <==> false
  {
  }

  lemma ReachAbcdeExactPrefix1()
    ensures forall j :: Reach(ABCDE, [0x61], 0, j) <==> j == 1
    ensures forall j :: Reach(ABCDE, [0x61], 1, j) <==> j == 0 || j == 1 || j == 2
    ensures forall j :: Reach(ABCDE, [0x61], 2, j) <==> j == 1 || j == 2 || j == 3
  {
    AbcdeWildcards();
    AbcdeAcceptsSmallA();
    assert [0x61][..0] == [];
    ReachAbcdeStart();
  }

  lemma ReachAbcdeShiftedPrefix1()
    ensures forall j :: Reach(ABCDE, [0x78], 0, j) <==> false
    ensures forall j :: Reach(ABCDE, [0x78], 1, j) <==> j == 0 || j == 1
    ensures forall j :: Reach(ABCDE, [0x78], 2, j) <==> j == 1 || j == 2
  {
    AbcdeWildcards();
    AbcdeAcceptsSmallX();
    assert [0x78][..0] == [];
    ReachAbcdeStart();
  }

  lemma ReachAbcdeHeadlessPrefix1()
    ensures forall j :: Reach(ABCDE, [0x62], 0, j) <==> false
    ensures forall j :: Reach(ABCDE, [0x62], 1, j) <==> j == 0 || j == 1
    ensures forall j :: Reach(ABCDE, [0x62], 2, j) <==> j == 1 || j == 2
  {
    AbcdeWildcards();
    AbcdeAcceptsSmallB();
    assert [0x62][..0] == [];
    ReachAbcdeStart();
  }

  lemma ReachAbcdeExactPrefix2()
    ensures forall j :: Reach(ABCDE, [0x61, 0x62], 0, j) <==> j == 2
    ensures forall j :: Reach(ABCDE, [0x61, 0x62], 1, j) <==> j == 1 || j == 2 || j == 3
    ensures forall j :: Reach(ABCDE, [0x61, 0x62], 2, j) <==> j == 0 || j == 1 || j == 2 || j == 3 || j == 4
  {
    AbcdeWildcards();
    AbcdeAcceptsSmallB();
    assert [0x61, 0x62][..1] == [0x61];
    ReachAbcdeExactPrefix1();
  }

  lemma ReachAbcdeCaseBlindPrefix2()
    ensures forall j :: Reach(ABCDE, [0x61, 0x42], 0, j) <==> j == 2
    ensures forall j :: Reach(ABCDE, [0x61, 0x42], 1, j) <==> j == 1 || j == 2 || j == 3
    ensures forall j :: Reach(ABCDE, [0x61, 0x42], 2, j) <==> j == 0 || j == 1 || j == 2 || j == 3 || j == 4
  {
    AbcdeWildcards();
    AbcdeAcceptsCapitalB();
    assert [0x61, 0x42][..1] == [0x61];
    ReachAbcdeExactPrefix1();
  }

  lemma ReachAbcdeShiftedPrefix2()
    ensures forall j :: Reach(ABCDE, [0x78, 0x61], 0, j) <==> false
    ensures forall j :: Reach(ABCDE, [0x78, 0x61], 1, j) <==> j == 1
    ensures forall j :: Reach(ABCDE, [0x78, 0x61], 2, j) <==> j == 0 || j == 1 || j == 2
  {
    AbcdeWildcards();
    AbcdeAcceptsSmallA();
    assert [0x78, 0x61][..1] == [0x78];
    ReachAbcdeShiftedPrefix1();
  }

  lemma ReachAbcdeHeadlessPrefix2()
    ensures forall j :: Reach(ABCDE, [0x62, 0x63], 0, j) <==> false
    ensures forall j :: Reach(ABCDE, [0x62, 0x63], 1, j) <==> false
    ensures forall j :: Reach(ABCDE, [0x62, 0x63], 2, j) <==> j == 0 || j == 1 || j == 2 || j == 3
  {
    AbcdeWildcards();
    AbcdeAcceptsSmallC();
    assert [0x62, 0x63][..1] == [0x62];
    ReachAbcdeHeadlessPrefix1();
  }

  lemma ReachAbcdeExactPrefix3()
    ensures forall j :: Reach(ABCDE, [0x61, 0x62, 0x63], 0, j) <==> j == 3
    ensures forall j :: Reach(ABCDE, [0x61, 0x62, 0x63], 1, j) <==> j == 2 || j == 3 || j == 4
    ensures forall j :: Reach(ABCDE, [0x61, 0x62, 0x63], 2, j) <==> j == 1 || j == 2 || j == 3 || j == 4 || j == 5
  {
    AbcdeWildcards();
    AbcdeAcceptsSmallC();
    assert [0x61, 0x62, 0x63][..2] == [0x61, 0x62];
    ReachAbcdeExactPrefix2();
  }

  lemma ReachAbcdeCaseBlindPrefix3()
    ensures forall j :: Reach(ABCDE, [0x61, 0x42, 0x43], 0, j) <==> j == 3
    ensures forall j :: Reach(ABCDE, [0x61, 0x42, 0x43], 1, j) <==> j == 2 || j == 3 || j == 4
    ensures forall j :: Reach(ABCDE, [0x61, 0x42, 0x43], 2, j) <==> j == 1 || j == 2 || j == 3 || j == 4 || j == 5
  {
    AbcdeWildcards();
    AbcdeAcceptsCapitalC();
    assert [0x61, 0x42, 0x43][..2] == [0x61, 0x42];
    ReachAbcdeCaseBlindPrefix2();
  }

  lemma ReachAbcdeInsertedPrefix3()
    ensures forall j :: Reach(ABCDE, [0x61, 0x62, 0x58], 0, j) <==> false
    ensures forall j :: Reach(ABCDE, [0x61, 0x62, 0x58], 1, j) <==> j == 2 || j == 3
    ensures forall j :: Reach(ABCDE, [0x61, 0x62, 0x58], 2, j) <==> j == 1 || j == 2 || j == 3 || j == 4
  {
    AbcdeWildcards();
    AbcdeAcceptsCapitalX();
    assert [0x61, 0x62, 0x58][..2] == [0x61, 0x62];
    ReachAbcdeExactPrefix2();
  }

  lemma ReachAbcdeSubstitutedPrefix3()
    ensures forall j :: Reach(ABCDE, [0x61, 0x62, 0x3F], 0, j) <==> false
    ensures forall j :: Reach(ABCDE, [0x61, 0x62, 0x3F], 1, j) <==> j == 2 || j == 3
    ensures forall j :: Reach(ABCDE, [0x61, 0x62, 0x3F], 2, j) <==> j == 1 || j == 2 || j == 3 || j == 4
  {
    AbcdeWildcards();
    AbcdeAcceptsQuestionMark();
    assert [0x61, 0x62, 0x3F][..2] == [0x61, 0x62];
    ReachAbcdeExactPrefix2();
  }

  lemma ReachAbcdeDeletedPrefix3()
    ensures forall j :: Reach(ABCDE, [0x61, 0x62, 0x64], 0, j) <==> false
    ensures forall j :: Reach(ABCDE, [0x61, 0x62, 0x64], 1, j) <==> j == 2 || j == 3 || j == 4
    ensures forall j :: Reach(ABCDE, [0x61, 0x62, 0x64], 2, j) <==> j == 1 || j == 2 || j == 3 || j == 4 || j == 5
  {
    AbcdeWildcards();
    AbcdeAcceptsSmallD();
    assert [0x61, 0x62, 0x64][..2] == [0x61, 0x62];
    ReachAbcdeExactPrefix2();
  }

  lemma ReachAbcdeShiftedPrefix3()
    ensures forall j :: Reach(ABCDE, [0x78, 0x61, 0x62], 0, j) <==> false
    ensures forall j :: Reach(ABCDE, [0x78, 0x61, 0x62], 1, j) <==> j == 2
    ensures forall j :: Reach(ABCDE, [0x78, 0x61, 0x62], 2, j) <==> j == 1 || j == 2 || j == 3
  {
    AbcdeWildcards();
    AbcdeAcceptsSmallB();
    assert [0x78, 0x61, 0x62][..2] == [0x78, 0x61];
    ReachAbcdeShiftedPrefix2();
  }

  lemma ReachAbcdeHeadlessPrefix3()
    ensures forall j :: Reach(ABCDE, [0x62, 0x63, 0x64], 0, j) <==> false
    ensures forall j :: Reach(ABCDE, [0x62, 0x63, 0x64], 1, j) <==> false
    ensures forall j :: Reach(ABCDE, [0x62, 0x63, 0x64], 2, j) <==> j == 4
  {
    AbcdeWildcards();
    AbcdeAcceptsSmallD();
    assert [0x62, 0x63, 0x64][..2] == [0x62, 0x63];
    ReachAbcdeHeadlessPrefix2();
  }

  lemma ReachAbcdeExactPrefix4()
    ensures forall j :: Reach(ABCDE, [0x61, 0x62, 0x63, 0x64], 0, j) <==> j == 4
    ensures forall j :: Reach(ABCDE, [0x61, 0x62, 0x63, 0x64], 1, j) <==> j == 3 || j == 4 || j == 5
    ensures forall j :: Reach(ABCDE, [0x61, 0x62, 0x63, 0x64], 2, j) <==> j == 2 || j == 3 || j == 4 || j == 5 || j == 6
  {
    AbcdeWildcards();
    AbcdeAcceptsSmallD();
    assert [0x61, 0x62, 0x63, 0x64][..3] == [0x61, 0x62, 0x63];
    ReachAbcdeExactPrefix3();
  }

  lemma ReachAbcdeCaseBlindPrefix4()
    ensures forall j :: Reach(ABCDE, [0x61, 0x42, 0x43, 0x44], 0, j) <==> j == 4
    ensures forall j :: Reach(ABCDE, [0x61, 0x42, 0x43, 0x44], 1, j) <==> j == 3 || j == 4 || j == 5
    ensures forall j :: Reach(ABCDE, [0x61, 0x42, 0x43, 0x44], 2, j) <==> j == 2 || j == 3 || j == 4 || j == 5 || j == 6
  {
    AbcdeWildcards();
    AbcdeAcceptsCapitalD();
    assert [0x61, 0x42, 0x43, 0x44][..3] == [0x61, 0x42, 0x43];
    ReachAbcdeCaseBlindPrefix3();
  }

  lemma ReachAbcdeInsertedPrefix4()
    ensures forall j :: Reach(ABCDE, [0x61, 0x62, 0x58, 0x63], 0, j) <==> false
    ensures forall j :: Reach(ABCDE, [0x61, 0x62, 0x58, 0x63], 1, j) <==> j == 3
    ensures forall j :: Reach(ABCDE, [0x61, 0x62, 0x58, 0x63], 2, j) <==> j == 2 || j == 3 || j == 4
  {
    AbcdeWildcards();
    AbcdeAcceptsSmallC();
    assert [0x61, 0x62, 0x58, 0x63][..3] == [0x61, 0x62, 0x58];
    ReachAbcdeInsertedPrefix3();
  }

  lemma ReachAbcdeSubstitutedPrefix4()
    ensures forall j :: Reach(ABCDE, [0x61, 0x62, 0x3F, 0x64], 0, j) <==> false
    ensures forall j :: Reach(ABCDE, [0x61, 0x62, 0x3F, 0x64], 1, j) <==> j == 4
    ensures forall j :: Reach(ABCDE, [0x61, 0x62, 0x3F, 0x64], 2, j) <==> j == 2 || j == 3 || j == 4 || j == 5
  {
    AbcdeWildcards();
    AbcdeAcceptsSmallD();
    assert [0x61, 0x62, 0x3F, 0x64][..3] == [0x61, 0x62, 0x3F];
    ReachAbcdeSubstitutedPrefix3();
  }

  lemma ReachAbcdeTwoInsertedPrefix4()
    ensures forall j :: Reach(ABCDE, [0x61, 0x62, 0x58, 0x58], 0, j) <==> false
    ensures forall j :: Reach(ABCDE, [0x61, 0x62, 0x58, 0x58], 1, j) <==> false
    ensures forall j :: Reach(ABCDE, [0x61, 0x62, 0x58, 0x58], 2, j) <==> j == 2 || j == 3 || j == 4
  {
    AbcdeWildcards();
    AbcdeAcceptsCapitalX();
    assert [0x61, 0x62, 0x58, 0x58][..3] == [0x61, 0x62, 0x58];
    ReachAbcdeInsertedPrefix3();
  }

  lemma ReachAbcdeDeletedPrefix4()
    ensures forall j :: Reach(ABCDE, [0x61, 0x62, 0x64, 0x65], 0, j) <==> false
    ensures forall j :: Reach(ABCDE, [0x61, 0x62, 0x64, 0x65], 1, j) <==> j == 5
    ensures forall j :: Reach(ABCDE, [0x61, 0x62, 0x64, 0x65], 2, j) <==> j == 2 || j == 3 || j == 4 || j == 5 || j == 6
  {
    AbcdeWildcards();
    AbcdeAcceptsSmallE();
    assert [0x61, 0x62, 0x64, 0x65][..3] == [0x61, 0x62, 0x64];
    ReachAbcdeDeletedPrefix3();
  }

  lemma ReachAbcdeShiftedPrefix4()
    ensures forall j :: Reach(ABCDE, [0x78, 0x61, 0x62, 0x63], 0, j) <==> false
    ensures forall j :: Reach(ABCDE, [0x78, 0x61, 0x62, 0x63], 1, j) <==> j == 3
    ensures forall j :: Reach(ABCDE, [0x78, 0x61, 0x62, 0x63], 2, j) <==> j == 2 || j == 3 || j == 4
  {
    AbcdeWildcards();
    AbcdeAcceptsSmallC();
    assert [0x78, 0x61, 0x62, 0x63][..3] == [0x78, 0x61, 0x62];
    ReachAbcdeShiftedPrefix3();
  }

  lemma ReachAbcdeHeadlessPrefix4()
    ensures forall j :: Reach(ABCDE, [0x62, 0x63, 0x64, 0x65], 0, j) <==> false
    ensures forall j :: Reach(ABCDE, [0x62, 0x63, 0x64, 0x65], 1, j) <==> false
    ensures forall j :: Reach(ABCDE, [0x62, 0x63, 0x64, 0x65], 2, j) <==> j == 5
  {
    AbcdeWildcards();
    AbcdeAcceptsSmallE();
    assert [0x62, 0x63, 0x64, 0x65][..3] == [0x62, 0x63, 0x64];
    ReachAbcdeHeadlessPrefix3();
  }

  lemma ReachAbcdeExactPrefix5()
    ensures forall j :: Reach(ABCDE, [0x61, 0x62, 0x63, 0x64, 0x65], 0, j) <==> j == 5
    ensures forall j :: Reach(ABCDE, [0x61, 0x62, 0x63, 0x64, 0x65], 1, j) <==> j == 4 || j == 5 || j == 6
    ensures forall j :: Reach(ABCDE, [0x61, 0x62, 0x63, 0x64, 0x65], 2, j) <==> j == 3 || j == 4 || j == 5 || j == 6 || j == 7
  {
    AbcdeWildcards();
    AbcdeAcceptsSmallE();
    assert [0x61, 0x62, 0x63, 0x64, 0x65][..4] == [0x61, 0x62, 0x63, 0x64];
    ReachAbcdeExactPrefix4();
  }

  lemma ReachAbcdeCaseBlindPrefix5()
    ensures forall j :: Reach(ABCDE, [0x61, 0x42, 0x43, 0x44, 0x65], 0, j) <==> j == 5
    ensures forall j :: Reach(ABCDE, [0x61, 0x42, 0x43, 0x44, 0x65], 1, j) <==> j == 4 || j == 5 || j == 6
    ensures forall j :: Reach(ABCDE, [0x61, 0x42, 0x43, 0x44, 0x65], 2, j) <==> j == 3 || j == 4 || j == 5 || j == 6 || j == 7
  {
    AbcdeWildcards();
    AbcdeAcceptsSmallE();
    assert [0x61, 0x42, 0x43, 0x44, 0x65][..4] == [0x61, 0x42, 0x43, 0x44];
    ReachAbcdeCaseBlindPrefix4();
  }

  lemma ReachAbcdeInsertedPrefix5()
    ensures forall j :: Reach(ABCDE, [0x61, 0x62, 0x58, 0x63, 0x64], 0, j) <==> false
    ensures forall j :: Reach(ABCDE, [0x61, 0x62, 0x58, 0x63, 0x64], 1, j) <==> j == 4
    ensures forall j :: Reach(ABCDE, [0x61, 0x62, 0x58, 0x63, 0x64], 2, j) <==> j == 3 || j == 4 || j == 5
  {
    AbcdeWildcards();
    AbcdeAcceptsSmallD();
    assert [0x61, 0x62, 0x58, 0x63, 0x64][..4] == [0x61, 0x62, 0x58, 0x63];
    ReachAbcdeInsertedPrefix4();
  }

  lemma ReachAbcdeSubstitutedPrefix5()
    ensures forall j :: Reach(ABCDE, [0x61, 0x62, 0x3F, 0x64, 0x65], 0, j) <==> false
    ensures forall j :: Reach(ABCDE, [0x61, 0x62, 0x3F, 0x64, 0x65], 1, j) <==> j == 5
    ensures forall j :: Reach(ABCDE, [0x61, 0x62, 0x3F, 0x64, 0x65], 2, j) <==> j == 4 || j == 5 || j == 6
  {
    AbcdeWildcards();
    AbcdeAcceptsSmallE();
    assert [0x61, 0x62, 0x3F, 0x64, 0x65][..4] == [0x61, 0x62, 0x3F, 0x64];
    ReachAbcdeSubstitutedPrefix4();
  }

  lemma ReachAbcdeTwoInsertedPrefix5()
    ensures forall j :: Reach(ABCDE, [0x61, 0x62, 0x58, 0x58, 0x64], 0, j) <==> false
    ensures forall j :: Reach(ABCDE, [0x61, 0x62, 0x58, 0x58, 0x64], 1, j) <==> false
    ensures forall j :: Reach(ABCDE, [0x61, 0x62, 0x58, 0x58, 0x64], 2, j) <==> j == 4
  {
    AbcdeWildcards();
    AbcdeAcceptsSmallD();
    assert [0x61, 0x62, 0x58, 0x58, 0x64][..4] == [0x61, 0x62, 0x58, 0x58];
    ReachAbcdeTwoInsertedPrefix4();
  }

  lemma ReachAbcdeShiftedPrefix5()
    ensures forall j :: Reach(ABCDE, [0x78, 0x61, 0x62, 0x63, 0x64], 0, j) <==> false
    ensures forall j :: Reach(ABCDE, [0x78, 0x61, 0x62, 0x63, 0x64], 1, j) <==> j == 4
    ensures forall j :: Reach(ABCDE, [0x78, 0x61, 0x62, 0x63, 0x64], 2, j) <==> j == 3 || j == 4 || j == 5
  {
    AbcdeWildcards();
    AbcdeAcceptsSmallD();
    assert [0x78, 0x61, 0x62, 0x63, 0x64][..4] == [0x78, 0x61, 0x62, 0x63];
    ReachAbcdeShiftedPrefix4();
  }

  lemma ReachAbcdeInsertedPrefix6()
    ensures forall j :: Reach(ABCDE, [0x61, 0x62, 0x58, 0x63, 0x64, 0x65], 0, j) <==> false
    ensures forall j :: Reach(ABCDE, [0x61, 0x62, 0x58, 0x63, 0x64, 0x65], 1, j) <==> j == 5
    ensures forall j :: Reach(ABCDE, [0x61, 0x62, 0x58, 0x63, 0x64, 0x65], 2, j) <==> j == 4 || j == 5 || j == 6
  {
    AbcdeWildcards();
    AbcdeAcceptsSmallE();
    assert [0x61, 0x62, 0x58, 0x63, 0x64, 0x65][..5] == [0x61, 0x62, 0x58, 0x63, 0x64];
    ReachAbcdeInsertedPrefix5();
  }

  lemma ReachAbcdeTwoInsertedPrefix6()
    ensures forall j :: Reach(ABCDE, [0x61, 0x62, 0x58, 0x58, 0x64, 0x65], 0, j) <==> false
    ensures forall j :: Reach(ABCDE, [0x61, 0x62, 0x58, 0x58, 0x64, 0x65], 1, j) <==> false
    ensures forall j :: Reach(ABCDE, [0x61, 0x62, 0x58, 0x58, 0x64, 0x65], 2, j) <==> j == 5
  {
    AbcdeWildcards();
    AbcdeAcceptsSmallE();
    assert [0x61, 0x62, 0x58, 0x58, 0x64, 0x65][..5] == [0x61, 0x62, 0x58, 0x58, 0x64];
    ReachAbcdeTwoInsertedPrefix5();
  }

  lemma ReachAbcdeShiftedPrefix6()
    ensures forall j :: Reach(ABCDE, [0x78, 0x61, 0x62, 0x63, 0x64, 0x65], 0, j) <==> false
    ensures forall j :: Reach(ABCDE, [0x78, 0x61, 0x62, 0x63, 0x64, 0x65], 1, j) <==> j == 5
    ensures forall j :: Reach(ABCDE, [0x78, 0x61, 0x62, 0x63, 0x64, 0x65], 2, j) <==> j == 4 || j == 5 || j == 6
  {
    AbcdeWildcards();
    AbcdeAcceptsSmallE();
    assert [0x78, 0x61, 0x62, 0x63, 0x64, 0x65][..5] == [0x78, 0x61, 0x62, 0x63, 0x64];
    ReachAbcdeShiftedPrefix5();
  }

  lemma AbcdeExactReached()
    ensures InTable(Unpack("abcde"))
    ensures |NonSpace(Unpack("abcde"))| == 5
    ensures Reach(Unpack("abcde"), Unpack("abcde"), 0, 5)
    ensures Reach(Unpack("abcde"), Unpack("abcde"), 1, 5)
  {
    AbcdeUnpacked();
    assert Unpack("abcde") == [0x61, 0x62, 0x63, 0x64, 0x65];
    ReachAbcdeExactPrefix5();
  }

  /** The pattern itself, at budgets 0 and 1. */
  lemma AbcdeExact()
    ensures InTable(Unpack("abcde"))
    ensures Find(Compile(Unpack("abcde")), Unpack("abcde"), 0)
    ensures Find(Compile(Unpack("abcde")), Unpack("abcde"), 1)
  {
    AbcdeExactReached();
    FindSpec(Unpack("abcde"), Unpack("abcde"), 0);
    FindSpec(Unpack("abcde"), Unpack("abcde"), 1);
  }

  lemma AbcdeCaseBlindReached()
    ensures InTable(Unpack("abcde")) && InTable(Unpack("aBCDe"))
    ensures |NonSpace(Unpack("abcde"))| == 5
    ensures Reach(Unpack("abcde"), Unpack("aBCDe"), 0, 5)
  {
    AbcdeUnpacked();
    assert Unpack("aBCDe") == [0x61, 0x42, 0x43, 0x44, 0x65];
    ReachAbcdeCaseBlindPrefix5();
  }

  /** Capitals match their small letters. */
  lemma AbcdeCaseBlind()
    ensures InTable(Unpack("abcde")) && InTable(Unpack("aBCDe"))
    ensures Find(Compile(Unpack("abcde")), Unpack("aBCDe"), 0)
  {
    AbcdeCaseBlindReached();
    FindSpec(Unpack("abcde"), Unpack("aBCDe"), 0);
  }

  lemma AbcdeInsertedReached()
    ensures InTable(Unpack("abcde")) && InTable(Unpack("abXcde"))
    ensures |NonSpace(Unpack("abcde"))| == 5
    ensures !Reach(Unpack("abcde"), Unpack("abXcde"), 0, 5)
    ensures Reach(Unpack("abcde"), Unpack("abXcde"), 1, 5)
  {
    AbcdeUnpacked();
    assert Unpack("abXcde") == [0x61, 0x62, 0x58, 0x63, 0x64, 0x65];
    ReachAbcdeInsertedPrefix6();
  }

  /** One inserted codepoint costs one edit. */
  lemma AbcdeInserted()
    ensures InTable(Unpack("abcde")) && InTable(Unpack("abXcde"))
    ensures !Find(Compile(Unpack("abcde")), Unpack("abXcde"), 0)
    ensures Find(Compile(Unpack("abcde")), Unpack("abXcde"), 1)
  {
    AbcdeInsertedReached();
    FindSpec(Unpack("abcde"), Unpack("abXcde"), 0);
    FindSpec(Unpack("abcde"), Unpack("abXcde"), 1);
  }

  lemma AbcdeSubstitutedReached()
    ensures InTable(Unpack("abcde")) && InTable(Unpack("ab?de"))
    ensures |NonSpace(Unpack("abcde"))| == 5
    ensures !Reach(Unpack("abcde"), Unpack("ab?de"), 0, 5)
    ensures Reach(Unpack("abcde"), Unpack("ab?de"), 1, 5)
  {
    AbcdeUnpacked();
    assert Unpack("ab?de") == [0x61, 0x62, 0x3F, 0x64, 0x65];
    ReachAbcdeSubstitutedPrefix5();
  }

  /** One substituted codepoint costs one edit. */
  lemma AbcdeSubstituted()
    ensures InTable(Unpack("abcde")) && InTable(Unpack("ab?de"))
    ensures !Find(Compile(Unpack("abcde")), Unpack("ab?de"), 0)
    ensures Find(Compile(Unpack("abcde")), Unpack("ab?de"), 1)
  {
    AbcdeSubstitutedReached();
    FindSpec(Unpack("abcde"), Unpack("ab?de"), 0);
    FindSpec(Unpack("abcde"), Unpack("ab?de"), 1);
  }

  lemma AbcdeTwoInsertedReached()
    ensures InTable(Unpack("abcde")) && InTable(Unpack("abXXde"))
    ensures |NonSpace(Unpack("abcde"))| == 5
    ensures !Reach(Unpack("abcde"), Unpack("abXXde"), 1, 5)
    ensures Reach(Unpack("abcde"), Unpack("abXXde"), 2, 5)
  {
    AbcdeUnpacked();
    assert Unpack("abXXde") == [0x61, 0x62, 0x58, 0x58, 0x64, 0x65];
    ReachAbcdeTwoInsertedPrefix6();
  }

  /** Two inserted codepoints cost two edits. */
  lemma AbcdeTwoInserted()
    ensures InTable(Unpack("abcde")) && InTable(Unpack("abXXde"))
    ensures !Find(Compile(Unpack("abcde")), Unpack("abXXde"), 1)
    ensures Find(Compile(Unpack("abcde")), Unpack("abXXde"), 2)
  {
    AbcdeTwoInsertedReached();
    FindSpec(Unpack("abcde"), Unpack("abXXde"), 1);
    FindSpec(Unpack("abcde"), Unpack("abXXde"), 2);
  }

  lemma AbcdeDeletedReached()
    ensures InTable(Unpack("abcde")) && InTable(Unpack("abde"))
    ensures |NonSpace(Unpack("abcde"))| == 5
    ensures !Reach(Unpack("abcde"), Unpack("abde"), 0, 5)
  {
    AbcdeUnpacked();
    assert Unpack("abde") == [0x61, 0x62, 0x64, 0x65];
    ReachAbcdeDeletedPrefix4();
  }

  /** A deleted codepoint is not free. */
  lemma AbcdeDeleted()
    ensures InTable(Unpack("abcde")) && InTable(Unpack("abde"))
    ensures !Find(Compile(Unpack("abcde")), Unpack("abde"), 0)
  {
    AbcdeDeletedReached();
    FindSpec(Unpack("abcde"), Unpack("abde"), 0);
  }

  lemma AbcdeTruncatedReached()
    ensures InTable(Unpack("abcde")) && InTable(Unpack("abcd"))
    ensures |NonSpace(Unpack("abcde"))| == 5
    ensures !Reach(Unpack("abcde"), Unpack("abcd"), 0, 5)
    ensures Reach(Unpack("abcde"), Unpack("abcd"), 1, 5)
  {
    AbcdeUnpacked();
    assert Unpack("abcd") == [0x61, 0x62, 0x63, 0x64];
    ReachAbcdeExactPrefix4();
  }

  /** A missing last codepoint costs one edit. */
  lemma AbcdeTruncated()
    ensures InTable(Unpack("abcde")) && InTable(Unpack("abcd"))
    ensures !Find(Compile(Unpack("abcde")), Unpack("abcd"), 0)
    ensures Find(Compile(Unpack("abcde")), Unpack("abcd"), 1)
  {
    AbcdeTruncatedReached();
    FindSpec(Unpack("abcde"), Unpack("abcd"), 0);
    FindSpec(Unpack("abcde"), Unpack("abcd"), 1);
  }

  lemma AbcdeShiftedReached()
    ensures InTable(Unpack("abcde")) && InTable(Unpack("xabcde"))
    ensures |NonSpace(Unpack("abcde"))| == 5
    ensures !Reach(Unpack("abcde"), Unpack("xabcde"), 0, 5)
    ensures Reach(Unpack("abcde"), Unpack("xabcde"), 1, 5)
  {
    AbcdeUnpacked();
    assert Unpack("xabcde") == [0x78, 0x61, 0x62, 0x63, 0x64, 0x65];
    ReachAbcdeShiftedPrefix6();
  }

  /** The whole text is matched: a leading extra codepoint is an edit, not a skipped prefix. */
  lemma AbcdeShifted()
    ensures InTable(Unpack("abcde")) && InTable(Unpack("xabcde"))
    ensures !Find(Compile(Unpack("abcde")), Unpack("xabcde"), 0)
    ensures Find(Compile(Unpack("abcde")), Unpack("xabcde"), 1)
  {
    AbcdeShiftedReached();
    FindSpec(Unpack("abcde"), Unpack("xabcde"), 0);
    FindSpec(Unpack("abcde"), Unpack("xabcde"), 1);
  }

  lemma AbcdeHeadlessReached()
    ensures InTable(Unpack("abcde")) && InTable(Unpack("bcde"))
    ensures |NonSpace(Unpack("abcde"))| == 5
    ensures !Reach(Unpack("abcde"), Unpack("bcde"), 1, 5)
    ensures Reach(Unpack("abcde"), Unpack("bcde"), 2, 5)
  {
    AbcdeUnpacked();
    assert Unpack("bcde") == [0x62, 0x63, 0x64, 0x65];
    ReachAbcdeHeadlessPrefix4();
  }

  /** The text without its first codepoint is found at budget 2 but not at 1. */
  lemma AbcdeHeadless()
    ensures InTable(Unpack("abcde")) && InTable(Unpack("bcde"))
    ensures !Find(Compile(Unpack("abcde")), Unpack("bcde"), 1)
    ensures Find(Compile(Unpack("abcde")), Unpack("bcde"), 2)
  {
    AbcdeHeadlessReached();
    FindSpec(Unpack("abcde"), Unpack("bcde"), 1);
    FindSpec(Unpack("abcde"), Unpack("bcde"), 2);
  }

  const AB_DE: seq<nat> := [0x61, 0x62, 0x20, 0x64, 0x65]

  lemma AbDeShape3()
    ensures NonSpace([0x61, 0x62, 0x20]) == [0x61, 0x62]
  {
    AbcdeShape2();
    assert [0x61, 0x62] + [0x20] == [0x61, 0x62, 0x20];
    NonSpaceSnoc([0x61, 0x62], 0x20);
  }

  lemma AbDeShape4()
    ensures NonSpace([0x61, 0x62, 0x20, 0x64]) == [0x61, 0x62, 0x64]
  {
    AbDeShape3();
    assert [0x61, 0x62, 0x20] + [0x64] == [0x61, 0x62, 0x20, 0x64];
    NonSpaceSnoc([0x61, 0x62, 0x20], 0x64);
  }

  lemma AbDeShape()
    ensures NonSpace(AB_DE) == [0x61, 0x62, 0x64, 0x65]
  {
    AbDeShape4();
    assert [0x61, 0x62, 0x20, 0x64] + [0x65] == AB_DE;
    NonSpaceSnoc([0x61, 0x62, 0x20, 0x64], 0x65);
  }

  lemma AbDeUnpacked()
    ensures Unpack("ab de") == AB_DE && |NonSpace(AB_DE)| == 4
  {
    AbDeShape();
  }

  lemma AbDeWildcards()
    ensures forall j :: WildcardAt(AB_DE, j) <==> j == 2
  {
    assert AB_DE[..2] == [0x61, 0x62];
    AbcdeShape2();
    assert AB_DE[2] == SPACE;
  }

  /** The positions that accept text codepoint 'X' (U+0058). */
  lemma AbDeAcceptsCapitalX()
    ensures forall j :: PositionAccepts(AB_DE, j, 0x58) <==> false
  {
    AbDeShape();
    assert 0x58 !in Variants(0x61);
    assert 0x58 !in Variants(0x62);
    assert 0x58 !in Variants(0x64);
    assert 0x58 !in Variants(0x65);
  }

  /** The positions that accept text codepoint 'a' (U+0061). */
  lemma AbDeAcceptsSmallA()
    ensures forall j :: PositionAccepts(AB_DE, j, 0x61) <==> j == 0
  {
    AbDeShape();
    assert 0x61 in Variants(0x61);
    assert 0x61 !in Variants(0x62);
    assert 0x61 !in Variants(0x64);
    assert 0x61 !in Variants(0x65);
  }

  /** The positions that accept text codepoint 'b' (U+0062). */
  lemma AbDeAcceptsSmallB()
    ensures forall j :: PositionAccepts(AB_DE, j, 0x62) <==> j == 1
  {
    AbDeShape();
    assert 0x62 !in Variants(0x61);
    assert 0x62 in Variants(0x62);
    assert 0x62 !in Variants(0x64);
    assert 0x62 !in Variants(0x65);
  }

  /** The positions that accept text codepoint 'c' (U+0063). */
  lemma AbDeAcceptsSmallC()
    ensures forall j :: PositionAccepts(AB_DE, j, 0x63) <==> false
  {
    AbDeShape();
    assert 0x63 !in Variants(0x61);
    assert 0x63 !in Variants(0x62);
    assert 0x63 !in Variants(0x64);
    assert 0x63 !in Variants(0x65);
  }

  /** The positions that accept text codepoint 'd' (U+0064). */
  lemma AbDeAcceptsSmallD()
    ensures forall j :: PositionAccepts(AB_DE, j, 0x64) <==> j == 2
  {
    AbDeShape();
    assert 0x64 !in Variants(0x61);
    assert 0x64 !in Variants(0x62);
    assert 0x64 in Variants(0x64);
    assert 0x64 !in Variants(0x65);
  }

  /** The positions that accept text codepoint 'e' (U+0065). */
  lemma AbDeAcceptsSmallE()
    ensures forall j :: PositionAccepts(AB_DE, j, 0x65) <==> j == 3
  {
    AbDeShape();
    assert 0x65 !in Variants(0x61);
    assert 0x65 !in Variants(0x62);
    assert 0x65 !in Variants(0x64);
    assert 0x65 in Variants(0x65);
  }

  /** The positions that accept text codepoint 'x' (U+0078). */
  lemma AbDeAcceptsSmallX()
    ensures forall j :: PositionAccepts(AB_DE, j, 0x78) <==> false
  {
    AbDeShape();
    assert 0x78 !in Variants(0x61);
    assert 0x78 !in Variants(0x62);
    assert 0x78 !in Variants(0x64);
    assert 0x78 !in Variants(0x65);
  }

  // Reach<V>Prefix<k>: the configurations reachable after the first k codepoints
  // of the text of vector V.

  lemma ReachAbDeStart()
    ensures forall j :: Reach(AB_DE, [], 0, j) <==> j == 0
    ensures forall j :: Reach(AB_DE, [], 1, j) <==> false
  {
  }

  lemma ReachWildOnePrefix1()
    ensures forall j :: Reach(AB_DE, [0x61], 0, j) <==> j == 1
    ensures forall j :: Reach(AB_DE, [0x61], 1, j) <==> j == 0 || j == 1 || j == 2
  {
    AbDeWildcards();
    AbDeAcceptsSmallA();
    assert [0x61][..0] == [];
    ReachAbDeStart();
  }

  lemma ReachWildOnePrefix2()
    ensures forall j :: Reach(AB_DE, [0x61, 0x62], 0, j) <==> j == 2
    ensures forall j :: Reach(AB_DE, [0x61, 0x62], 1, j) <==> j == 1 || j == 2 || j == 3
  {
    AbDeWildcards();
    AbDeAcceptsSmallB();
    assert [0x61, 0x62][..1] == [0x61];
    ReachWildOnePrefix1();
  }

  lemma ReachWildOnePrefix3()
    ensures forall j :: Reach(AB_DE, [0x61, 0x62, 0x63], 0, j) <==> j == 2
    ensures forall j :: Reach(AB_DE, [0x61, 0x62, 0x63], 1, j) <==> j == 2 || j == 3
  {
    AbDeWildcards();
    AbDeAcceptsSmallC();
    assert [0x61, 0x62, 0x63][..2] == [0x61, 0x62];
    ReachWildOnePrefix2();
  }

  lemma ReachWildManyPrefix3()
    ensures forall j :: Reach(AB_DE, [0x61, 0x62, 0x58], 0, j) <==> j == 2
    ensures forall j :: Reach(AB_DE, [0x61, 0x62, 0x58], 1, j) <==> j == 2 || j == 3
  {
    AbDeWildcards();
    AbDeAcceptsCapitalX();
    assert [0x61, 0x62, 0x58][..2] == [0x61, 0x62];
    ReachWildOnePrefix2();
  }

  lemma ReachWildEditedPrefix3()
    ensures forall j :: Reach(AB_DE, [0x61, 0x62, 0x61], 0, j) <==> j == 2
    ensures forall j :: Reach(AB_DE, [0x61, 0x62, 0x61], 1, j) <==> j == 2 || j == 3
  {
    AbDeWildcards();
    AbDeAcceptsSmallA();
    assert [0x61, 0x62, 0x61][..2] == [0x61, 0x62];
    ReachWildOnePrefix2();
  }

  lemma ReachWildOnePrefix4()
    ensures forall j :: Reach(AB_DE, [0x61, 0x62, 0x63, 0x64], 0, j) <==> j == 2 || j == 3
    ensures forall j :: Reach(AB_DE, [0x61, 0x62, 0x63, 0x64], 1, j) <==> j == 2 || j == 3 || j == 4
  {
    AbDeWildcards();
    AbDeAcceptsSmallD();
    assert [0x61, 0x62, 0x63, 0x64][..3] == [0x61, 0x62, 0x63];
    ReachWildOnePrefix3();
  }

  lemma ReachWildTwoPrefix4()
    ensures forall j :: Reach(AB_DE, [0x61, 0x62, 0x63, 0x63], 0, j) <==> j == 2
    ensures forall j :: Reach(AB_DE, [0x61, 0x62, 0x63, 0x63], 1, j) <==> j == 2 || j == 3
  {
    AbDeWildcards();
    AbDeAcceptsSmallC();
    assert [0x61, 0x62, 0x63, 0x63][..3] == [0x61, 0x62, 0x63];
    ReachWildOnePrefix3();
  }

  lemma ReachWildManyPrefix4()
    ensures forall j :: Reach(AB_DE, [0x61, 0x62, 0x58, 0x58], 0, j) <==> j == 2
    ensures forall j :: Reach(AB_DE, [0x61, 0x62, 0x58, 0x58], 1, j) <==> j == 2 || j == 3
  {
    AbDeWildcards();
    AbDeAcceptsCapitalX();
    assert [0x61, 0x62, 0x58, 0x58][..3] == [0x61, 0x62, 0x58];
    ReachWildManyPrefix3();
  }

  lemma ReachWildEditedPrefix4()
    ensures forall j :: Reach(AB_DE, [0x61, 0x62, 0x61, 0x62], 0, j) <==> j == 2
    ensures forall j :: Reach(AB_DE, [0x61, 0x62, 0x61, 0x62], 1, j) <==> j == 2 || j == 3
  {
    AbDeWildcards();
    AbDeAcceptsSmallB();
    assert [0x61, 0x62, 0x61, 0x62][..3] == [0x61, 0x62, 0x61];
    ReachWildEditedPrefix3();
  }

  lemma ReachWildOnePrefix5()
    ensures forall j :: Reach(AB_DE, [0x61, 0x62, 0x63, 0x64, 0x65], 0, j) <==> j == 2 || j == 4
    ensures forall j :: Reach(AB_DE, [0x61, 0x62, 0x63, 0x64, 0x65], 1, j) <==> j == 2 || j == 3 || j == 4 || j == 5
  {
    AbDeWildcards();
    AbDeAcceptsSmallE();
    assert [0x61, 0x62, 0x63, 0x64, 0x65][..4] == [0x61, 0x62, 0x63, 0x64];
    ReachWildOnePrefix4();
  }

  lemma ReachWildTwoPrefix5()
    ensures forall j :: Reach(AB_DE, [0x61, 0x62, 0x63, 0x63, 0x64], 0, j) <==> j == 2 || j == 3
    ensures forall j :: Reach(AB_DE, [0x61, 0x62, 0x63, 0x63, 0x64], 1, j) <==> j == 2 || j == 3 || j == 4
  {
    AbDeWildcards();
    AbDeAcceptsSmallD();
    assert [0x61, 0x62, 0x63, 0x63, 0x64][..4] == [0x61, 0x62, 0x63, 0x63];
    ReachWildTwoPrefix4();
  }

  lemma ReachWildManyPrefix5()
    ensures forall j :: Reach(AB_DE, [0x61, 0x62, 0x58, 0x58, 0x58], 0, j) <==> j == 2
    ensures forall j :: Reach(AB_DE, [0x61, 0x62, 0x58, 0x58, 0x58], 1, j) <==> j == 2 || j == 3
  {
    AbDeWildcards();
    AbDeAcceptsCapitalX();
    assert [0x61, 0x62, 0x58, 0x58, 0x58][..4] == [0x61, 0x62, 0x58, 0x58];
    ReachWildManyPrefix4();
  }

  lemma ReachWildEditedPrefix5()
    ensures forall j :: Reach(AB_DE, [0x61, 0x62, 0x61, 0x62, 0x63], 0, j) <==> j == 2
    ensures forall j :: Reach(AB_DE, [0x61, 0x62, 0x61, 0x62, 0x63], 1, j) <==> j == 2 || j == 3
  {
    AbDeWildcards();
    AbDeAcceptsSmallC();
    assert [0x61, 0x62, 0x61, 0x62, 0x63][..4] == [0x61, 0x62, 0x61, 0x62];
    ReachWildEditedPrefix4();
  }

  lemma ReachWildUnfinishedPrefix5()
    ensures forall j :: Reach(AB_DE, [0x61, 0x62, 0x63, 0x63, 0x63], 0, j) <==> j == 2
    ensures forall j :: Reach(AB_DE, [0x61, 0x62, 0x63, 0x63, 0x63], 1, j) <==> j == 2 || j == 3
  {
    AbDeWildcards();
    AbDeAcceptsSmallC();
    assert [0x61, 0x62, 0x63, 0x63, 0x63][..4] == [0x61, 0x62, 0x63, 0x63];
    ReachWildTwoPrefix4();
  }

  lemma ReachWildTwoPrefix6()
    ensures forall j :: Reach(AB_DE, [0x61, 0x62, 0x63, 0x63, 0x64, 0x65], 0, j) <==> j == 2 || j == 4
    ensures forall j :: Reach(AB_DE, [0x61, 0x62, 0x63, 0x63, 0x64, 0x65], 1, j) <==> j == 2 || j == 3 || j == 4 || j == 5
  {
    AbDeWildcards();
    AbDeAcceptsSmallE();
    assert [0x61, 0x62, 0x63, 0x63, 0x64, 0x65][..5] == [0x61, 0x62, 0x63, 0x63, 0x64];
    ReachWildTwoPrefix5();
  }

  lemma ReachWildManyPrefix6()
    ensures forall j :: Reach(AB_DE, [0x61, 0x62, 0x58, 0x58, 0x58, 0x58], 0, j) <==> j == 2
    ensures forall j :: Reach(AB_DE, [0x61, 0x62, 0x58, 0x58, 0x58, 0x58], 1, j) <==> j == 2 || j == 3
  {
    AbDeWildcards();
    AbDeAcceptsCapitalX();
    assert [0x61, 0x62, 0x58, 0x58, 0x58, 0x58][..5] == [0x61, 0x62, 0x58, 0x58, 0x58];
    ReachWildManyPrefix5();
  }

  lemma ReachWildEditedPrefix6()
    ensures forall j :: Reach(AB_DE, [0x61, 0x62, 0x61, 0x62, 0x63, 0x63], 0, j) <==> j == 2
    ensures forall j :: Reach(AB_DE, [0x61, 0x62, 0x61, 0x62, 0x63, 0x63], 1, j) <==> j == 2 || j == 3
  {
    AbDeWildcards();
    AbDeAcceptsSmallC();
    assert [0x61, 0x62, 0x61, 0x62, 0x63, 0x63][..5] == [0x61, 0x62, 0x61, 0x62, 0x63];
    ReachWildEditedPrefix5();
  }

  lemma ReachWildUnfinishedPrefix6()
    ensures forall j :: Reach(AB_DE, [0x61, 0x62, 0x63, 0x63, 0x63, 0x63], 0, j) <==> j == 2
    ensures forall j :: Reach(AB_DE, [0x61, 0x62, 0x63, 0x63, 0x63, 0x63], 1, j) <==> j == 2 || j == 3
  {
    AbDeWildcards();
    AbDeAcceptsSmallC();
    assert [0x61, 0x62, 0x63, 0x63, 0x63, 0x63][..5] == [0x61, 0x62, 0x63, 0x63, 0x63];
    ReachWildUnfinishedPrefix5();
  }

  lemma ReachWildManyPrefix7()
    ensures forall j :: Reach(AB_DE, [0x61, 0x62, 0x58, 0x58, 0x58, 0x58, 0x58], 0, j) <==> j == 2
    ensures forall j :: Reach(AB_DE, [0x61, 0x62, 0x58, 0x58, 0x58, 0x58, 0x58], 1, j) <==> j == 2 || j == 3
  {
    AbDeWildcards();
    AbDeAcceptsCapitalX();
    assert [0x61, 0x62, 0x58, 0x58, 0x58, 0x58, 0x58][..6] == [0x61, 0x62, 0x58, 0x58, 0x58, 0x58];
    ReachWildManyPrefix6();
  }

  lemma ReachWildEditedPrefix7()
    ensures forall j :: Reach(AB_DE, [0x61, 0x62, 0x61, 0x62, 0x63, 0x63, 0x63], 0, j) <==> j == 2
    ensures forall j :: Reach(AB_DE, [0x61, 0x62, 0x61, 0x62, 0x63, 0x63, 0x63], 1, j) <==> j == 2 || j == 3
  {
    AbDeWildcards();
    AbDeAcceptsSmallC();
    assert [0x61, 0x62, 0x61, 0x62, 0x63, 0x63, 0x63][..6] == [0x61, 0x62, 0x61, 0x62, 0x63, 0x63];
    ReachWildEditedPrefix6();
  }

  lemma ReachWildUnfinishedPrefix7()
    ensures forall j :: Reach(AB_DE, [0x61, 0x62, 0x63, 0x63, 0x63, 0x63, 0x63], 0, j) <==> j == 2
    ensures forall j :: Reach(AB_DE, [0x61, 0x62, 0x63, 0x63, 0x63, 0x63, 0x63], 1, j) <==> j == 2 || j == 3
  {
    AbDeWildcards();
    AbDeAcceptsSmallC();
    assert [0x61, 0x62, 0x63, 0x63, 0x63, 0x63, 0x63][..6] == [0x61, 0x62, 0x63, 0x63, 0x63, 0x63];
    ReachWildUnfinishedPrefix6();
  }

  lemma ReachWildManyPrefix8()
    ensures forall j :: Reach(AB_DE, [0x61, 0x62, 0x58, 0x58, 0x58, 0x58, 0x58, 0x58], 0, j) <==> j == 2
    ensures forall j :: Reach(AB_DE, [0x61, 0x62, 0x58, 0x58, 0x58, 0x58, 0x58, 0x58], 1, j) <==> j == 2 || j == 3
  {
    AbDeWildcards();
    AbDeAcceptsCapitalX();
    assert [0x61, 0x62, 0x58, 0x58, 0x58, 0x58, 0x58, 0x58][..7] == [0x61, 0x62, 0x58, 0x58, 0x58, 0x58, 0x58];
    ReachWildManyPrefix7();
  }

  lemma ReachWildEditedPrefix8()
    ensures forall j :: Reach(AB_DE, [0x61, 0x62, 0x61, 0x62, 0x63, 0x63, 0x63, 0x63], 0, j) <==> j == 2
    ensures forall j :: Reach(AB_DE, [0x61, 0x62, 0x61, 0x62, 0x63, 0x63, 0x63, 0x63], 1, j) <==> j == 2 || j == 3
  {
    AbDeWildcards();
    AbDeAcceptsSmallC();
    assert [0x61, 0x62, 0x61, 0x62, 0x63, 0x63, 0x63, 0x63][..7] == [0x61, 0x62, 0x61, 0x62, 0x63, 0x63, 0x63];
    ReachWildEditedPrefix7();
  }

  lemma ReachWildUnfinishedPrefix8()
    ensures forall j :: Reach(AB_DE, [0x61, 0x62, 0x63, 0x63, 0x63, 0x63, 0x63, 0x78], 0, j) <==> j == 2
    ensures forall j :: Reach(AB_DE, [0x61, 0x62, 0x63, 0x63, 0x63, 0x63, 0x63, 0x78], 1, j) <==> j == 2 || j == 3
  {
    AbDeWildcards();
    AbDeAcceptsSmallX();
    assert [0x61, 0x62, 0x63, 0x63, 0x63, 0x63, 0x63, 0x78][..7] == [0x61, 0x62, 0x63, 0x63, 0x63, 0x63, 0x63];
    ReachWildUnfinishedPrefix7();
  }

  lemma ReachWildManyPrefix9()
    ensures forall j :: Reach(AB_DE, [0x61, 0x62, 0x58, 0x58, 0x58, 0x58, 0x58, 0x58, 0x58], 0, j) <==> j == 2
    ensures forall j :: Reach(AB_DE, [0x61, 0x62, 0x58, 0x58, 0x58, 0x58, 0x58, 0x58, 0x58], 1, j) <==> j == 2 || j == 3
  {
    AbDeWildcards();
    AbDeAcceptsCapitalX();
    assert [0x61, 0x62, 0x58, 0x58, 0x58, 0x58, 0x58, 0x58, 0x58][..8] == [0x61, 0x62, 0x58, 0x58, 0x58, 0x58, 0x58, 0x58];
    ReachWildManyPrefix8();
  }

  lemma ReachWildEditedPrefix9()
    ensures forall j :: Reach(AB_DE, [0x61, 0x62, 0x61, 0x62, 0x63, 0x63, 0x63, 0x63, 0x63], 0, j) <==> j == 2
    ensures forall j :: Reach(AB_DE, [0x61, 0x62, 0x61, 0x62, 0x63, 0x63, 0x63, 0x63, 0x63], 1, j) <==> j == 2 || j == 3
  {
    AbDeWildcards();
    AbDeAcceptsSmallC();
    assert [0x61, 0x62, 0x61, 0x62, 0x63, 0x63, 0x63, 0x63, 0x63][..8] == [0x61, 0x62, 0x61, 0x62, 0x63, 0x63, 0x63, 0x63];
    ReachWildEditedPrefix8();
  }

  lemma ReachWildUnfinishedPrefix9()
    ensures forall j :: Reach(AB_DE, [0x61, 0x62, 0x63, 0x63, 0x63, 0x63, 0x63, 0x78, 0x65], 0, j) <==> j == 2
    ensures forall j :: Reach(AB_DE, [0x61, 0x62, 0x63, 0x63, 0x63, 0x63, 0x63, 0x78, 0x65], 1, j) <==> j == 2 || j == 3 || j == 4
  {
    AbDeWildcards();
    AbDeAcceptsSmallE();
    assert [0x61, 0x62, 0x63, 0x63, 0x63, 0x63, 0x63, 0x78, 0x65][..8] == [0x61, 0x62, 0x63, 0x63, 0x63, 0x63, 0x63, 0x78];
    ReachWildUnfinishedPrefix8();
  }

  lemma ReachWildManyPrefix10()
    ensures forall j :: Reach(AB_DE, [0x61, 0x62, 0x58, 0x58, 0x58, 0x58, 0x58, 0x58, 0x58, 0x64], 0, j) <==> j == 2 || j == 3
    ensures forall j :: Reach(AB_DE, [0x61, 0x62, 0x58, 0x58, 0x58, 0x58, 0x58, 0x58, 0x58, 0x64], 1, j) <==> j == 2 || j == 3 || j == 4
  {
    AbDeWildcards();
    AbDeAcceptsSmallD();
    assert [0x61, 0x62, 0x58, 0x58, 0x58, 0x58, 0x58, 0x58, 0x58, 0x64][..9] == [0x61, 0x62, 0x58, 0x58, 0x58, 0x58, 0x58, 0x58, 0x58];
    ReachWildManyPrefix9();
  }

  lemma ReachWildEditedPrefix10()
    ensures forall j :: Reach(AB_DE, [0x61, 0x62, 0x61, 0x62, 0x63, 0x63, 0x63, 0x63, 0x63, 0x78], 0, j) <==> j == 2
    ensures forall j :: Reach(AB_DE, [0x61, 0x62, 0x61, 0x62, 0x63, 0x63, 0x63, 0x63, 0x63, 0x78], 1, j) <==> j == 2 || j == 3
  {
    AbDeWildcards();
    AbDeAcceptsSmallX();
    assert [0x61, 0x62, 0x61, 0x62, 0x63, 0x63, 0x63, 0x63, 0x63, 0x78][..9] == [0x61, 0x62, 0x61, 0x62, 0x63, 0x63, 0x63, 0x63, 0x63];
    ReachWildEditedPrefix9();
  }

  lemma ReachWildManyPrefix11()
    ensures forall j :: Reach(AB_DE, [0x61, 0x62, 0x58, 0x58, 0x58, 0x58, 0x58, 0x58, 0x58, 0x64, 0x65], 0, j) <==> j == 2 || j == 4
    ensures forall j :: Reach(AB_DE, [0x61, 0x62, 0x58, 0x58, 0x58, 0x58, 0x58, 0x58, 0x58, 0x64, 0x65], 1, j) <==> j == 2 || j == 3 || j == 4 || j == 5
  {
    AbDeWildcards();
    AbDeAcceptsSmallE();
    assert [0x61, 0x62, 0x58, 0x58, 0x58, 0x58, 0x58, 0x58, 0x58, 0x64, 0x65][..10] == [0x61, 0x62, 0x58, 0x58, 0x58, 0x58, 0x58, 0x58, 0x58, 0x64];
    ReachWildManyPrefix10();
  }

  lemma ReachWildEditedPrefix11()
    ensures forall j :: Reach(AB_DE, [0x61, 0x62, 0x61, 0x62, 0x63, 0x63, 0x63, 0x63, 0x63, 0x78, 0x65], 0, j) <==> j == 2
    ensures forall j :: Reach(AB_DE, [0x61, 0x62, 0x61, 0x62, 0x63, 0x63, 0x63, 0x63, 0x63, 0x78, 0x65], 1, j) <==> j == 2 || j == 3 || j == 4
  {
    AbDeWildcards();
    AbDeAcceptsSmallE();
    assert [0x61, 0x62, 0x61, 0x62, 0x63, 0x63, 0x63, 0x63, 0x63, 0x78, 0x65][..10] == [0x61, 0x62, 0x61, 0x62, 0x63, 0x63, 0x63, 0x63, 0x63, 0x78];
    ReachWildEditedPrefix10();
  }

  lemma ReachWildEditedPrefix12()
    ensures forall j :: Reach(AB_DE, [0x61, 0x62, 0x61, 0x62, 0x63, 0x63, 0x63, 0x63, 0x63, 0x78, 0x65, 0x64], 0, j) <==> j == 2 || j == 3
    ensures forall j :: Reach(AB_DE, [0x61, 0x62, 0x61, 0x62, 0x63, 0x63, 0x63, 0x63, 0x63, 0x78, 0x65, 0x64], 1, j) <==> j == 2 || j == 3 || j == 4
  {
    AbDeWildcards();
    AbDeAcceptsSmallD();
    assert [0x61, 0x62, 0x61, 0x62, 0x63, 0x63, 0x63, 0x63, 0x63, 0x78, 0x65, 0x64][..11] == [0x61, 0x62, 0x61, 0x62, 0x63, 0x63, 0x63, 0x63, 0x63, 0x78, 0x65];
    ReachWildEditedPrefix11();
  }

  lemma ReachWildEditedPrefix13()
    ensures forall j :: Reach(AB_DE, [0x61, 0x62, 0x61, 0x62, 0x63, 0x63, 0x63, 0x63, 0x63, 0x78, 0x65, 0x64, 0x65], 0, j) <==> j == 2 || j == 4
    ensures forall j :: Reach(AB_DE, [0x61, 0x62, 0x61, 0x62, 0x63, 0x63, 0x63, 0x63, 0x63, 0x78, 0x65, 0x64, 0x65], 1, j) <==> j == 2 || j == 3 || j == 4 || j == 5
  {
    AbDeWildcards();
    AbDeAcceptsSmallE();
    assert [0x61, 0x62, 0x61, 0x62, 0x63, 0x63, 0x63, 0x63, 0x63, 0x78, 0x65, 0x64, 0x65][..12] == [0x61, 0x62, 0x61, 0x62, 0x63, 0x63, 0x63, 0x63, 0x63, 0x78, 0x65, 0x64];
    ReachWildEditedPrefix12();
  }

  lemma WildOneReached()
    ensures InTable(Unpack("ab de")) && InTable(Unpack("abcde"))
    ensures |NonSpace(Unpack("ab de"))| == 4
    ensures Reach(Unpack("ab de"), Unpack("abcde"), 0, 4)
  {
    AbDeUnpacked();
    assert Unpack("abcde") == [0x61, 0x62, 0x63, 0x64, 0x65];
    ReachWildOnePrefix5();
  }

  /** The space matches one codepoint. */
  lemma WildOne()
    ensures InTable(Unpack("ab de")) && InTable(Unpack("abcde"))
    ensures Find(Compile(Unpack("ab de")), Unpack("abcde"), 0)
  {
    WildOneReached();
    FindSpec(Unpack("ab de"), Unpack("abcde"), 0);
  }

  lemma WildTwoReached()
    ensures InTable(Unpack("ab de")) && InTable(Unpack("abccde"))
    ensures |NonSpace(Unpack("ab de"))| == 4
    ensures Reach(Unpack("ab de"), Unpack("abccde"), 0, 4)
  {
    AbDeUnpacked();
    assert Unpack("abccde") == [0x61, 0x62, 0x63, 0x63, 0x64, 0x65];
    ReachWildTwoPrefix6();
  }

  /** The space matches two codepoints. */
  lemma WildTwo()
    ensures InTable(Unpack("ab de")) && InTable(Unpack("abccde"))
    ensures Find(Compile(Unpack("ab de")), Unpack("abccde"), 0)
  {
    WildTwoReached();
    FindSpec(Unpack("ab de"), Unpack("abccde"), 0);
  }

  lemma WildManyReached()
    ensures InTable(Unpack("ab de")) && InTable(Unpack("abXXXXXXXde"))
    ensures |NonSpace(Unpack("ab de"))| == 4
    ensures Reach(Unpack("ab de"), Unpack("abXXXXXXXde"), 0, 4)
  {
    AbDeUnpacked();
    assert Unpack("abXXXXXXXde") == [0x61, 0x62, 0x58, 0x58, 0x58, 0x58, 0x58, 0x58, 0x58, 0x64, 0x65];
    ReachWildManyPrefix11();
  }

  /** The space matches seven codepoints. */
  lemma WildMany()
    ensures InTable(Unpack("ab de")) && InTable(Unpack("abXXXXXXXde"))
    ensures Find(Compile(Unpack("ab de")), Unpack("abXXXXXXXde"), 0)
  {
    WildManyReached();
    FindSpec(Unpack("ab de"), Unpack("abXXXXXXXde"), 0);
  }

  lemma WildEditedReached()
    ensures InTable(Unpack("ab de")) && InTable(Unpack("ababcccccxede"))
    ensures |NonSpace(Unpack("ab de"))| == 4
    ensures Reach(Unpack("ab de"), Unpack("ababcccccxede"), 0, 4)
    ensures Reach(Unpack("ab de"), Unpack("ababcccccxede"), 1, 4)
  {
    AbDeUnpacked();
    assert Unpack("ababcccccxede") == [0x61, 0x62, 0x61, 0x62, 0x63, 0x63, 0x63, 0x63, 0x63, 0x78, 0x65, 0x64, 0x65];
    ReachWildEditedPrefix13();
  }

  /** Found at budget 1 as the test asserts, and already at budget 0: the slot absorbs "abcccccxe". */
  lemma WildEdited()
    ensures InTable(Unpack("ab de")) && InTable(Unpack("ababcccccxede"))
    ensures Find(Compile(Unpack("ab de")), Unpack("ababcccccxede"), 0)
    ensures Find(Compile(Unpack("ab de")), Unpack("ababcccccxede"), 1)
  {
    WildEditedReached();
    FindSpec(Unpack("ab de"), Unpack("ababcccccxede"), 0);
    FindSpec(Unpack("ab de"), Unpack("ababcccccxede"), 1);
  }

  lemma WildUnfinishedReached()
    ensures InTable(Unpack("ab de")) && InTable(Unpack("abcccccxe"))
    ensures |NonSpace(Unpack("ab de"))| == 4
    ensures !Reach(Unpack("ab de"), Unpack("abcccccxe"), 0, 4)
  {
    AbDeUnpacked();
    assert Unpack("abcccccxe") == [0x61, 0x62, 0x63, 0x63, 0x63, 0x63, 0x63, 0x78, 0x65];
    ReachWildUnfinishedPrefix9();
  }

  /** The last position must still be matched. */
  lemma WildUnfinished()
    ensures InTable(Unpack("ab de")) && InTable(Unpack("abcccccxe"))
    ensures !Find(Compile(Unpack("ab de")), Unpack("abcccccxe"), 0)
  {
    WildUnfinishedReached();
    FindSpec(Unpack("ab de"), Unpack("abcccccxe"), 0);
  }

  const KANJI: seq<nat> := [0x6F22, 0x5B57, 0x6587, 0x5B57, 0x5217]

  lemma KanjiShape1()
    ensures NonSpace([0x6F22]) == [0x6F22]
  {
    NonSpaceSnoc([], 0x6F22);
  }

  lemma KanjiShape2()
    ensures NonSpace([0x6F22, 0x5B57]) == [0x6F22, 0x5B57]
  {
    KanjiShape1();
    assert [0x6F22] + [0x5B57] == [0x6F22, 0x5B57];
    NonSpaceSnoc([0x6F22], 0x5B57);
  }

  lemma KanjiShape3()
    ensures NonSpace([0x6F22, 0x5B57, 0x6587]) == [0x6F22, 0x5B57, 0x6587]
  {
    KanjiShape2();
    assert [0x6F22, 0x5B57] + [0x6587] == [0x6F22, 0x5B57, 0x6587];
    NonSpaceSnoc([0x6F22, 0x5B57], 0x6587);
  }

  lemma KanjiShape4()
    ensures NonSpace([0x6F22, 0x5B57, 0x6587, 0x5B57]) == [0x6F22, 0x5B57, 0x6587, 0x5B57]
  {
    KanjiShape3();
    assert [0x6F22, 0x5B57, 0x6587] + [0x5B57] == [0x6F22, 0x5B57, 0x6587, 0x5B57];
    NonSpaceSnoc([0x6F22, 0x5B57, 0x6587], 0x5B57);
  }

  lemma KanjiShape()
    ensures NonSpace(KANJI) == [0x6F22, 0x5B57, 0x6587, 0x5B57, 0x5217]
  {
    KanjiShape4();
    assert [0x6F22, 0x5B57, 0x6587, 0x5B57] + [0x5217] == KANJI;
    NonSpaceSnoc([0x6F22, 0x5B57, 0x6587, 0x5B57], 0x5217);
  }

  lemma KanjiUnpacked()
    ensures Unpack("漢字文字列") == KANJI && |NonSpace(KANJI)| == 5
  {
    KanjiShape();
  }

  lemma KanjiWildcards()
    ensures forall j :: WildcardAt(KANJI, j) <==> false
  {
  }

  /** The positions that accept text codepoint の (U+306E). */
  lemma KanjiAcceptsNo()
    ensures forall j :: PositionAccepts(KANJI, j, 0x306E) <==> false
  {
    KanjiShape();
  }

  /** The positions that accept text codepoint 典 (U+5178). */
  lemma KanjiAcceptsCanon()
    ensures forall j :: PositionAccepts(KANJI, j, 0x5178) <==> false
  {
    KanjiShape();
  }

  /** The positions that accept text codepoint 列 (U+5217). */
  lemma KanjiAcceptsRow()
    ensures forall j :: PositionAccepts(KANJI, j, 0x5217) <==> j == 4
  {
    KanjiShape();
  }

  /** The positions that accept text codepoint 和 (U+548C). */
  lemma KanjiAcceptsHarmony()
    ensures forall j :: PositionAccepts(KANJI, j, 0x548C) <==> false
  {
    KanjiShape();
  }

  /** The positions that accept text codepoint 字 (U+5B57). */
  lemma KanjiAcceptsCharacter()
    ensures forall j :: PositionAccepts(KANJI, j, 0x5B57) <==> j == 1 || j == 3
  {
    KanjiShape();
  }

  /** The positions that accept text codepoint 文 (U+6587). */
  lemma KanjiAcceptsWriting()
    ensures forall j :: PositionAccepts(KANJI, j, 0x6587) <==> j == 2
  {
    KanjiShape();
  }

  /** The positions that accept text codepoint 漢 (U+6F22). */
  lemma KanjiAcceptsHan()
    ensures forall j :: PositionAccepts(KANJI, j, 0x6F22) <==> j == 0
  {
    KanjiShape();
  }

  /** The positions that accept text codepoint 烈 (U+70C8). */
  lemma KanjiAcceptsFierce()
    ensures forall j :: PositionAccepts(KANJI, j, 0x70C8) <==> false
  {
    KanjiShape();
  }

  /** The positions that accept text codepoint 辞 (U+8F9E). */
  lemma KanjiAcceptsWord()
    ensures forall j :: PositionAccepts(KANJI, j, 0x8F9E) <==> false
  {
    KanjiShape();
  }

  // Reach<V>Prefix<k>: the configurations reachable after the first k codepoints
  // of the text of vector V.

  lemma ReachKanjiStart()
    ensures forall j :: Reach(KANJI, [], 0, j) <==> j == 0
    ensures forall j :: Reach(KANJI, [], 1, j) <==> false
    ensures forall j :: Reach(KANJI, [], 2, j) <==> false
  {
  }

  lemma ReachKanjiExactPrefix1()
    ensures forall j :: Reach(KANJI, [0x6F22], 0, j) <==> j == 1
    ensures forall j :: Reach(KANJI, [0x6F22], 1, j) <==> j == 0 || j == 1 || j == 2
    ensures forall j :: Reach(KANJI, [0x6F22], 2, j) <==> j == 1 || j == 2 || j == 3
  {
    KanjiWildcards();
    KanjiAcceptsHan();
    assert [0x6F22][..0] == [];
    ReachKanjiStart();
  }

  lemma ReachKanjiExactPrefix2()
    ensures forall j :: Reach(KANJI, [0x6F22, 0x5B57], 0, j) <==> j == 2
    ensures forall j :: Reach(KANJI, [0x6F22, 0x5B57], 1, j) <==> j == 1 || j == 2 || j == 3
    ensures forall j :: Reach(KANJI, [0x6F22, 0x5B57], 2, j) <==> j == 0 || j == 1 || j == 2 || j == 3 || j == 4
  {
    KanjiWildcards();
    KanjiAcceptsCharacter();
    assert [0x6F22, 0x5B57][..1] == [0x6F22];
    ReachKanjiExactPrefix1();
  }

  lemma ReachKanjiUnrelatedPrefix2()
    ensures forall j :: Reach(KANJI, [0x6F22, 0x548C], 0, j) <==> false
    ensures forall j :: Reach(KANJI, [0x6F22, 0x548C], 1, j) <==> j == 1 || j == 2
    ensures forall j :: Reach(KANJI, [0x6F22, 0x548C], 2, j) <==> j == 0 || j == 1 || j == 2 || j == 3
  {
    KanjiWildcards();
    KanjiAcceptsHarmony();
    assert [0x6F22, 0x548C][..1] == [0x6F22];
    ReachKanjiExactPrefix1();
  }

  lemma ReachKanjiExactPrefix3()
    ensures forall j :: Reach(KANJI, [0x6F22, 0x5B57, 0x6587], 0, j) <==> j == 3
    ensures forall j :: Reach(KANJI, [0x6F22, 0x5B57, 0x6587], 1, j) <==> j == 2 || j == 3 || j == 4
    ensures forall j :: Reach(KANJI, [0x6F22, 0x5B57, 0x6587], 2, j) <==> j == 1 || j == 2 || j == 3 || j == 4 || j == 5
  {
    KanjiWildcards();
    KanjiAcceptsWriting();
    assert [0x6F22, 0x5B57, 0x6587][..2] == [0x6F22, 0x5B57];
    ReachKanjiExactPrefix2();
  }

  lemma ReachKanjiInsertedPrefix3()
    ensures forall j :: Reach(KANJI, [0x6F22, 0x5B57, 0x306E], 0, j) <==> false
    ensures forall j :: Reach(KANJI, [0x6F22, 0x5B57, 0x306E], 1, j) <==> j == 2 || j == 3
    ensures forall j :: Reach(KANJI, [0x6F22, 0x5B57, 0x306E], 2, j) <==> j == 1 || j == 2 || j == 3 || j == 4
  {
    KanjiWildcards();
    KanjiAcceptsNo();
    assert [0x6F22, 0x5B57, 0x306E][..2] == [0x6F22, 0x5B57];
    ReachKanjiExactPrefix2();
  }

  lemma ReachKanjiUnrelatedPrefix3()
    ensures forall j :: Reach(KANJI, [0x6F22, 0x548C, 0x8F9E], 0, j) <==> false
    ensures forall j :: Reach(KANJI, [0x6F22, 0x548C, 0x8F9E], 1, j) <==> false
    ensures forall j :: Reach(KANJI, [0x6F22, 0x548C, 0x8F9E], 2, j) <==> j == 1 || j == 2 || j == 3
  {
    KanjiWildcards();
    KanjiAcceptsWord();
    assert [0x6F22, 0x548C, 0x8F9E][..2] == [0x6F22, 0x548C];
    ReachKanjiUnrelatedPrefix2();
  }

  lemma ReachKanjiExactPrefix4()
    ensures forall j :: Reach(KANJI, [0x6F22, 0x5B57, 0x6587, 0x5B57], 0, j) <==> j == 4
    ensures forall j :: Reach(KANJI, [0x6F22, 0x5B57, 0x6587, 0x5B57], 1, j) <==> j == 3 || j == 4 || j == 5
    ensures forall j :: Reach(KANJI, [0x6F22, 0x5B57, 0x6587, 0x5B57], 2, j) <==> j == 2 || j == 3 || j == 4 || j == 5 || j == 6
  {
    KanjiWildcards();
    KanjiAcceptsCharacter();
    assert [0x6F22, 0x5B57, 0x6587, 0x5B57][..3] == [0x6F22, 0x5B57, 0x6587];
    ReachKanjiExactPrefix3();
  }

  lemma ReachKanjiInsertedPrefix4()
    ensures forall j :: Reach(KANJI, [0x6F22, 0x5B57, 0x306E, 0x6587], 0, j) <==> false
    ensures forall j :: Reach(KANJI, [0x6F22, 0x5B57, 0x306E, 0x6587], 1, j) <==> j == 3
    ensures forall j :: Reach(KANJI, [0x6F22, 0x5B57, 0x306E, 0x6587], 2, j) <==> j == 2 || j == 3 || j == 4
  {
    KanjiWildcards();
    KanjiAcceptsWriting();
    assert [0x6F22, 0x5B57, 0x306E, 0x6587][..3] == [0x6F22, 0x5B57, 0x306E];
    ReachKanjiInsertedPrefix3();
  }

  lemma ReachKanjiUnrelatedPrefix4()
    ensures forall j :: Reach(KANJI, [0x6F22, 0x548C, 0x8F9E, 0x5178], 0, j) <==> false
    ensures forall j :: Reach(KANJI, [0x6F22, 0x548C, 0x8F9E, 0x5178], 1, j) <==> false
    ensures forall j :: Reach(KANJI, [0x6F22, 0x548C, 0x8F9E, 0x5178], 2, j) <==> false
  {
    KanjiWildcards();
    KanjiAcceptsCanon();
    assert [0x6F22, 0x548C, 0x8F9E, 0x5178][..3] == [0x6F22, 0x548C, 0x8F9E];
    ReachKanjiUnrelatedPrefix3();
  }

  lemma ReachKanjiExactPrefix5()
    ensures forall j :: Reach(KANJI, [0x6F22, 0x5B57, 0x6587, 0x5B57, 0x5217], 0, j) <==> j == 5
    ensures forall j :: Reach(KANJI, [0x6F22, 0x5B57, 0x6587, 0x5B57, 0x5217], 1, j) <==> j == 4 || j == 5 || j == 6
    ensures forall j :: Reach(KANJI, [0x6F22, 0x5B57, 0x6587, 0x5B57, 0x5217], 2, j) <==> j == 3 || j == 4 || j == 5 || j == 6 || j == 7
  {
    KanjiWildcards();
    KanjiAcceptsRow();
    assert [0x6F22, 0x5B57, 0x6587, 0x5B57, 0x5217][..4] == [0x6F22, 0x5B57, 0x6587, 0x5B57];
    ReachKanjiExactPrefix4();
  }

  lemma ReachKanjiInsertedPrefix5()
    ensures forall j :: Reach(KANJI, [0x6F22, 0x5B57, 0x306E, 0x6587, 0x5B57], 0, j) <==> false
    ensures forall j :: Reach(KANJI, [0x6F22, 0x5B57, 0x306E, 0x6587, 0x5B57], 1, j) <==> j == 4
    ensures forall j :: Reach(KANJI, [0x6F22, 0x5B57, 0x306E, 0x6587, 0x5B57], 2, j) <==> j == 3 || j == 4 || j == 5
  {
    KanjiWildcards();
    KanjiAcceptsCharacter();
    assert [0x6F22, 0x5B57, 0x306E, 0x6587, 0x5B57][..4] == [0x6F22, 0x5B57, 0x306E, 0x6587];
    ReachKanjiInsertedPrefix4();
  }

  lemma ReachKanjiSubstitutedPrefix5()
    ensures forall j :: Reach(KANJI, [0x6F22, 0x5B57, 0x6587, 0x5B57, 0x70C8], 0, j) <==> false
    ensures forall j :: Reach(KANJI, [0x6F22, 0x5B57, 0x6587, 0x5B57, 0x70C8], 1, j) <==> j == 4 || j == 5
    ensures forall j :: Reach(KANJI, [0x6F22, 0x5B57, 0x6587, 0x5B57, 0x70C8], 2, j) <==> j == 3 || j == 4 || j == 5 || j == 6
  {
    KanjiWildcards();
    KanjiAcceptsFierce();
    assert [0x6F22, 0x5B57, 0x6587, 0x5B57, 0x70C8][..4] == [0x6F22, 0x5B57, 0x6587, 0x5B57];
    ReachKanjiExactPrefix4();
  }

  lemma ReachKanjiInsertedPrefix6()
    ensures forall j :: Reach(KANJI, [0x6F22, 0x5B57, 0x306E, 0x6587, 0x5B57, 0x5217], 0, j) <==> false
    ensures forall j :: Reach(KANJI, [0x6F22, 0x5B57, 0x306E, 0x6587, 0x5B57, 0x5217], 1, j) <==> j == 5
    ensures forall j :: Reach(KANJI, [0x6F22, 0x5B57, 0x306E, 0x6587, 0x5B57, 0x5217], 2, j) <==> j == 4 || j == 5 || j == 6
  {
    KanjiWildcards();
    KanjiAcceptsRow();
    assert [0x6F22, 0x5B57, 0x306E, 0x6587, 0x5B57, 0x5217][..5] == [0x6F22, 0x5B57, 0x306E, 0x6587, 0x5B57];
    ReachKanjiInsertedPrefix5();
  }

  lemma KanjiExactReached()
    ensures InTable(Unpack("漢字文字列"))
    ensures |NonSpace(Unpack("漢字文字列"))| == 5
    ensures Reach(Unpack("漢字文字列"), Unpack("漢字文字列"), 0, 5)
  {
    KanjiUnpacked();
    assert Unpack("漢字文字列") == [0x6F22, 0x5B57, 0x6587, 0x5B57, 0x5217];
    ReachKanjiExactPrefix5();
  }

  /** The pattern itself. */
  lemma KanjiExact()
    ensures InTable(Unpack("漢字文字列"))
    ensures Find(Compile(Unpack("漢字文字列")), Unpack("漢字文字列"), 0)
  {
    KanjiExactReached();
    FindSpec(Unpack("漢字文字列"), Unpack("漢字文字列"), 0);
  }

  lemma KanjiInsertedReached()
    ensures InTable(Unpack("漢字文字列")) && InTable(Unpack("漢字の文字列"))
    ensures |NonSpace(Unpack("漢字文字列"))| == 5
    ensures !Reach(Unpack("漢字文字列"), Unpack("漢字の文字列"), 0, 5)
    ensures Reach(Unpack("漢字文字列"), Unpack("漢字の文字列"), 1, 5)
  {
    KanjiUnpacked();
    assert Unpack("漢字の文字列") == [0x6F22, 0x5B57, 0x306E, 0x6587, 0x5B57, 0x5217];
    ReachKanjiInsertedPrefix6();
  }

  /** One inserted codepoint. */
  lemma KanjiInserted()
    ensures InTable(Unpack("漢字文字列")) && InTable(Unpack("漢字の文字列"))
    ensures !Find(Compile(Unpack("漢字文字列")), Unpack("漢字の文字列"), 0)
    ensures Find(Compile(Unpack("漢字文字列")), Unpack("漢字の文字列"), 1)
  {
    KanjiInsertedReached();
    FindSpec(Unpack("漢字文字列"), Unpack("漢字の文字列"), 0);
    FindSpec(Unpack("漢字文字列"), Unpack("漢字の文字列"), 1);
  }

  lemma KanjiTruncatedReached()
    ensures InTable(Unpack("漢字文字列")) && InTable(Unpack("漢字文字"))
    ensures |NonSpace(Unpack("漢字文字列"))| == 5
    ensures !Reach(Unpack("漢字文字列"), Unpack("漢字文字"), 0, 5)
    ensures Reach(Unpack("漢字文字列"), Unpack("漢字文字"), 1, 5)
  {
    KanjiUnpacked();
    assert Unpack("漢字文字") == [0x6F22, 0x5B57, 0x6587, 0x5B57];
    ReachKanjiExactPrefix4();
  }

  /** A missing last codepoint. */
  lemma KanjiTruncated()
    ensures InTable(Unpack("漢字文字列")) && InTable(Unpack("漢字文字"))
    ensures !Find(Compile(Unpack("漢字文字列")), Unpack("漢字文字"), 0)
    ensures Find(Compile(Unpack("漢字文字列")), Unpack("漢字文字"), 1)
  {
    KanjiTruncatedReached();
    FindSpec(Unpack("漢字文字列"), Unpack("漢字文字"), 0);
    FindSpec(Unpack("漢字文字列"), Unpack("漢字文字"), 1);
  }

  lemma KanjiSubstitutedReached()
    ensures InTable(Unpack("漢字文字列")) && InTable(Unpack("漢字文字烈"))
    ensures |NonSpace(Unpack("漢字文字列"))| == 5
    ensures !Reach(Unpack("漢字文字列"), Unpack("漢字文字烈"), 0, 5)
    ensures Reach(Unpack("漢字文字列"), Unpack("漢字文字烈"), 1, 5)
  {
    KanjiUnpacked();
    assert Unpack("漢字文字烈") == [0x6F22, 0x5B57, 0x6587, 0x5B57, 0x70C8];
    ReachKanjiSubstitutedPrefix5();
  }

  /** One substituted codepoint. */
  lemma KanjiSubstituted()
    ensures InTable(Unpack("漢字文字列")) && InTable(Unpack("漢字文字烈"))
    ensures !Find(Compile(Unpack("漢字文字列")), Unpack("漢字文字烈"), 0)
    ensures Find(Compile(Unpack("漢字文字列")), Unpack("漢字文字烈"), 1)
  {
    KanjiSubstitutedReached();
    FindSpec(Unpack("漢字文字列"), Unpack("漢字文字烈"), 0);
    FindSpec(Unpack("漢字文字列"), Unpack("漢字文字烈"), 1);
  }

  lemma KanjiUnrelatedReached()
    ensures InTable(Unpack("漢字文字列")) && InTable(Unpack("漢和辞典"))
    ensures |NonSpace(Unpack("漢字文字列"))| == 5
    ensures !Reach(Unpack("漢字文字列"), Unpack("漢和辞典"), 2, 5)
  {
    KanjiUnpacked();
    assert Unpack("漢和辞典") == [0x6F22, 0x548C, 0x8F9E, 0x5178];
    ReachKanjiUnrelatedPrefix4();
  }

  /** An unrelated word is not found at budget 2. */
  lemma KanjiUnrelated()
    ensures InTable(Unpack("漢字文字列")) && InTable(Unpack("漢和辞典"))
    ensures !Find(Compile(Unpack("漢字文字列")), Unpack("漢和辞典"), 2)
  {
    KanjiUnrelatedReached();
    FindSpec(Unpack("漢字文字列"), Unpack("漢和辞典"), 2);
  }

  const AAB: seq<nat> := [0x61, 0x61, 0x62]

  lemma AabShape2()
    ensures NonSpace([0x61, 0x61]) == [0x61, 0x61]
  {
    AbcdeShape1();
    assert [0x61] + [0x61] == [0x61, 0x61];
    NonSpaceSnoc([0x61], 0x61);
  }

  lemma AabShape()
    ensures NonSpace(AAB) == [0x61, 0x61, 0x62]
  {
    AabShape2();
    assert [0x61, 0x61] + [0x62] == AAB;
    NonSpaceSnoc([0x61, 0x61], 0x62);
  }

  lemma AabUnpacked()
    ensures Unpack("aab") == AAB && |NonSpace(AAB)| == 3
  {
    AabShape();
  }

  lemma AabWildcards()
    ensures forall j :: WildcardAt(AAB, j) <==> false
  {
  }

  /** The positions that accept text codepoint 'a' (U+0061). */
  lemma AabAcceptsSmallA()
    ensures forall j :: PositionAccepts(AAB, j, 0x61) <==> j == 0 || j == 1
  {
    AabShape();
    assert 0x61 in Variants(0x61);
    assert 0x61 !in Variants(0x62);
  }

  /** The positions that accept text codepoint 'b' (U+0062). */
  lemma AabAcceptsSmallB()
    ensures forall j :: PositionAccepts(AAB, j, 0x62) <==> j == 2
  {
    AabShape();
    assert 0x62 !in Variants(0x61);
    assert 0x62 in Variants(0x62);
  }

  // Reach<V>Prefix<k>: the configurations reachable after the first k codepoints
  // of the text of vector V.

  lemma ReachAabStart()
    ensures forall j :: Reach(AAB, [], 0, j) <==> j == 0
    ensures forall j :: Reach(AAB, [], 1, j) <==> false
  {
  }

  lemma ReachAabHeadlessPrefix1()
    ensures forall j :: Reach(AAB, [0x61], 0, j) <==> j == 1
    ensures forall j :: Reach(AAB, [0x61], 1, j) <==> j == 0 || j == 1 || j == 2
  {
    AabWildcards();
    AabAcceptsSmallA();
    assert [0x61][..0] == [];
    ReachAabStart();
  }

  lemma ReachAabHeadlessPrefix2()
    ensures forall j :: Reach(AAB, [0x61, 0x62], 0, j) <==> false
    ensures forall j :: Reach(AAB, [0x61, 0x62], 1, j) <==> j == 1 || j == 2 || j == 3
  {
    AabWildcards();
    AabAcceptsSmallB();
    assert [0x61, 0x62][..1] == [0x61];
    ReachAabHeadlessPrefix1();
  }

  lemma AabHeadlessReached()
    ensures InTable(Unpack("aab")) && InTable(Unpack("ab"))
    ensures |NonSpace(Unpack("aab"))| == 3
    ensures !Reach(Unpack("aab"), Unpack("ab"), 0, 3)
    ensures Reach(Unpack("aab"), Unpack("ab"), 1, 3)
  {
    AabUnpacked();
    assert Unpack("ab") == [0x61, 0x62];
    ReachAabHeadlessPrefix2();
  }

  /** The text without the pattern's first codepoint is found at budget 1. */
  lemma AabHeadless()
    ensures InTable(Unpack("aab")) && InTable(Unpack("ab"))
    ensures !Find(Compile(Unpack("aab")), Unpack("ab"), 0)
    ensures Find(Compile(Unpack("aab")), Unpack("ab"), 1)
  {
    AabHeadlessReached();
    FindSpec(Unpack("aab"), Unpack("ab"), 0);
    FindSpec(Unpack("aab"), Unpack("ab"), 1);
  }

  const LETTER_A: seq<nat> := [0x61]

  lemma LetterAShape()
    ensures NonSpace(LETTER_A) == [0x61]
  {
    NonSpaceSnoc([], 0x61);
  }

  lemma LetterAUnpacked()
    ensures Unpack("a") == LETTER_A && |NonSpace(LETTER_A)| == 1
  {
    LetterAShape();
  }

  lemma LetterAWildcards()
    ensures forall j :: WildcardAt(LETTER_A, j) <==> false
  {
  }

  /** The positions that accept text codepoint 'x' (U+0078). */
  lemma LetterAAcceptsSmallX()
    ensures forall j :: PositionAccepts(LETTER_A, j, 0x78) <==> false
  {
    LetterAShape();
    assert 0x78 !in Variants(0x61);
  }

  // Reach<V>Prefix<k>: the configurations reachable after the first k codepoints
  // of the text of vector V.

  lemma ReachLetterAStart()
    ensures forall j :: Reach(LETTER_A, [], 0, j) <==> j == 0
    ensures forall j :: Reach(LETTER_A, [], 1, j) <==> false
    ensures forall j :: Reach(LETTER_A, [], 2, j) <==> false
    ensures forall j :: Reach(LETTER_A, [], 3, j) <==> false
  {
  }

  lemma ReachNotMonotonePrefix1()
    ensures forall j :: Reach(LETTER_A, [0x78], 0, j) <==> false
    ensures forall j :: Reach(LETTER_A, [0x78], 1, j) <==> j == 0 || j == 1
    ensures forall j :: Reach(LETTER_A, [0x78], 2, j) <==> j == 1 || j == 2
    ensures forall j :: Reach(LETTER_A, [0x78], 3, j) <==> j == 2 || j == 3
  {
    LetterAWildcards();
    LetterAAcceptsSmallX();
    assert [0x78][..0] == [];
    ReachLetterAStart();
  }

  lemma NotMonotoneReached()
    ensures InTable(Unpack("a")) && InTable(Unpack("x"))
    ensures |NonSpace(Unpack("a"))| == 1
    ensures Reach(Unpack("a"), Unpack("x"), 1, 1)
    ensures !Reach(Unpack("a"), Unpack("x"), 3, 1)
  {
    LetterAUnpacked();
    assert Unpack("x") == [0x78];
    ReachNotMonotonePrefix1();
  }

  /** Found at budget 1 but not at budget 3. */
  lemma NotMonotone()
    ensures InTable(Unpack("a")) && InTable(Unpack("x"))
    ensures Find(Compile(Unpack("a")), Unpack("x"), 1)
    ensures !Find(Compile(Unpack("a")), Unpack("x"), 3)
  {
    NotMonotoneReached();
    FindSpec(Unpack("a"), Unpack("x"), 1);
    FindSpec(Unpack("a"), Unpack("x"), 3);
  }

  const NOTHING: seq<nat> := []

  lemma NothingShape()
    ensures NonSpace(NOTHING) == []
  {
  }

  lemma NothingUnpacked()
    ensures Unpack("") == NOTHING && |NonSpace(NOTHING)| == 0
  {
    NothingShape();
  }

  lemma NothingWildcards()
    ensures forall j :: WildcardAt(NOTHING, j) <==> false
  {
  }

  // Reach<V>Prefix<k>: the configurations reachable after the first k codepoints
  // of the text of vector V.

  lemma ReachNothingStart()
    ensures forall j :: Reach(NOTHING, [], 0, j) <==> j == 0
    ensures forall j :: Reach(NOTHING, [], 1, j) <==> false
  {
  }

  lemma EmptyOnEmptyReached()
    ensures InTable(Unpack(""))
    ensures |NonSpace(Unpack(""))| == 0
    ensures Reach(Unpack(""), Unpack(""), 0, 0)
    ensures !Reach(Unpack(""), Unpack(""), 1, 0)
  {
    NothingUnpacked();
    assert Unpack("") == [];
    ReachNothingStart();
  }

  /** The empty pattern on the empty text. */
  lemma EmptyOnEmpty()
    ensures InTable(Unpack(""))
    ensures Find(Compile(Unpack("")), Unpack(""), 0)
    ensures !Find(Compile(Unpack("")), Unpack(""), 1)
  {
    EmptyOnEmptyReached();
    FindSpec(Unpack(""), Unpack(""), 0);
    FindSpec(Unpack(""), Unpack(""), 1);
  }

  /** A pattern one leading codepoint longer than the text it otherwise equals is
      within one edit of it. */
  lemma OneLeadingExtra(P: seq<nat>, T: seq<nat>, x: nat)
    requires P == [x] + T
    ensures Lev(P, T) <= 1
  {
    LevLeadingDeletion(x, T, T);
  }

  lemma AbcdeSplit()
    ensures Unpack("abcde") == [0x61] + Unpack("bcde")
  {
    AbcdeUnpacked();
    assert Unpack("bcde") == [0x62, 0x63, 0x64, 0x65];
  }

  /** `find` is not complete for Levenshtein distance: "bcde" is one deletion away from
      "abcde", yet it is not found at budget 1. */
  lemma NotComplete()
    ensures InTable(Unpack("abcde")) && InTable(Unpack("bcde"))
    ensures Lev(Unpack("abcde"), Unpack("bcde")) <= 1
    ensures !Find(Compile(Unpack("abcde")), Unpack("bcde"), 1)
  {
    AbcdeHeadless();
    AbcdeSplit();
    OneLeadingExtra(Unpack("abcde"), Unpack("bcde"), 0x61);
  }

  /** A wildcard also matches the empty run: "ab de" is found in "abde" at budget 0. */
  lemma WildEmptyRun()
    ensures InTable(Unpack("ab de")) && InTable(Unpack("abde"))
    ensures Find(Compile(Unpack("ab de")), Unpack("abde"), 0)
  {
    var a, b := [0x61, 0x62], [0x64, 0x65];
    assert Unpack("ab de") == a + [SPACE] + b;
    assert Unpack("abde") == a + [] + b;
    assert 0x61 in Variants(0x61) && 0x62 in Variants(0x62);
    assert 0x64 in Variants(0x64) && 0x65 in Variants(0x65);
    WildcardAbsorbs(a, b, a, [], b);
  }
}
